=== FILE: README.md ===
# Channel interleaving codec of the data-acquisition recorder

This project models the core of `logger.cpp`, a recorder that simulates multi-channel data
acquisition. Each channel samples at a sub-frequency of a 1000 Hz base rate. Its samples are
interleaved into one block with no per-sample tags, and the block is read back into one buffer
per channel. Writer and reader never exchange the schedule: each derives it from the sorted
channel table. A sample is taken at every tick `t` where `t % divider == 0`, and within one tick
the samples follow table order. The reader learns only the start time and the block length in
bytes. From these it estimates a duration in whole seconds and replays the schedule until the
length is used up.

The data file is modelled as a sequence of words: `[start, blockLen] ++ samples`. The two
header words are the program's 32-bit values; the sample words are unbounded integers (see
`Samples.SampleValue` under "Left out").
A header or payload that ends early is a `DecodeError`. Bad configurations are `ConfigError`
values, where the program exits with a numeric code.

Modules, leaf first:

- `Arith`: `Quot`, `Rem` and `Divides`, which are division by repeated subtraction, proved equal to `/` and `%`.
- `Words`: the 32-bit views `ToUnsigned` and `ToSigned` of unbounded integers.
- `Channels`: the divider table `F_VALUES`, the comparator `Compare`, and `SortChannels`, the reference sort.
- `Config`: registration of `-c<id>,<frequency>` requests and the post-parse checks; builds a `Session`.
- `Scheduling`: the emission schedule as a stream of `Event(pos, tick)` slots, per tick and per window.
- `Samples`: sample values and the per-channel `Column` view of a stream.
- `Encoder`: `test_encode` and `do_encode` as loop methods, proved equal to `EncodedFile`.
- `Decoder`: `test_decode` and `do_decode` as loop methods, proved equal to `DecodeSpec`.
- `Readback`: the duration estimate, the round trip, buffer capacity, and the no-over-read guarantee.
- `Scenarios`: a small recording worked word by word, and the inputs behind the findings below.

Two choices are parameters rather than fixed:

- `ValueRule` picks the divider a sample value is computed with. `LookupById` is the code as
  written: `get_value` receives the channel id, and `Channels[id]` indexes the sorted table
  with it. `OwnDivider` is the intended value, computed with the channel's own divider.
- `Variant` picks the reader. `AsWritten` forms the window end `start + duration` in 32 bits and
  sizes each buffer `duration / divider`, rounded down. `Repaired` counts `duration` ticks and
  rounds the buffer size up.

The round trip is proved for both rules and both readers, for every divider in 1..1000, not
only for dividers of 1000. It requires a valid table (one to 100 channels, every divider in 1..1000), a table the value rule applies to
(with `LookupById`, every id must be a table position), and 32-bit quantities that stay in
range (`FitsInWords`). Buffers are sequences without a bound: for the reader as written and
a divider that does not divide 1000, the round trip still holds in the model, but the
program writes past the end of the allocated buffer (`Scenarios.SourceCapacityOverflows`);
only `Readback.DecodeWithinCapacity` speaks about staying inside the buffers.

The model follows the code where it is surprising:

- sample values use the divider looked up by id;
- a short header or payload is reported as three distinct read errors, matching exit codes 10, 11 and 12;
- the `unsigned` channel id is stored in an `int`, so an id of `2^31` or more becomes negative and sorts first.

## Model

| member | source | states |
|---|---|---|
| `Channels.FValuesDivideBase` | logger.cpp:29-32 | each of the ten table dividers lies in 1..1000 and divides the base rate exactly; base rate divided by the entry gives back the permitted frequency |
| `Channels.CompareIsLexicographicOrder` | logger.cpp:48-62 | the comparator returns -1, 0 or 1; it returns 0 exactly for identical (divider, id) pairs; swapping the arguments negates it; smaller divider, then smaller id, compares below; it is transitive |
| `Channels.SortedPairwise` | logger.cpp:48-62 | a table is sorted by neighbour comparison exactly when every entry compares at most equal to every later entry |
| `Channels.SortChannels` | logger.cpp:310 | the sorted table is a permutation of the registered one and is in comparator order |
| `Channels.SortedUnique` | logger.cpp:310 | two sorted permutations of the same table are equal, so encoder and decoder see the same order whatever sort algorithm is used |
| `Channels.SortExample` | logger.cpp:310 | dividers (1,id 2), (2,id 0), (1,id 1) sort to ids 1, 2, 0 |
| `Config.ChannelFor` | logger.cpp:255-264 | an accepted frequency in 1..1000 gets a divider in 1..1000, the truncated quotient of the base rate by the frequency; the `unsigned` id is stored in a signed 32-bit field: it is kept below 2^31 and is congruent modulo 2^32 otherwise, landing in the signed range |
| `Config.ChannelForPermitted` | logger.cpp:29-32 | for a permitted frequency the computed divider is the table entry, and base rate divided by it recovers the frequency exactly |
| `Config.Register` | logger.cpp:253-267 | registration succeeds exactly when no frequency exceeds 1000; on success the table holds one descriptor per request in order; on failure the error names the first rejected request |
| `Config.Configure` | logger.cpp:253-310 | a session is built exactly when all frequencies are accepted, a file name is given, at least one channel and a positive duration; a rejected frequency wins over every other refusal and names the first rejected request, then a missing file name, then no channels, then a zero duration, which fixes every outcome; the session table is valid, sorted and a permutation of the registered one |
| `Config.ConfigureSortExample` | logger.cpp:257-310 | registering ids 2, 0, 1 at 1000, 500 and 1000 Hz yields the table order ids 1, 2, 0 |
| `Config.ConfigureLargeIdSortsFirst` | logger.cpp:56-59 | `-c2147483648,1000 -c0,1000` stores the first id as -2^31, so the comparator puts it ahead of id 0 |
| `Scheduling.IsDue` | logger.cpp:74 | the test `tick % divider == 0` answers whether the divider divides the tick |
| `Scheduling.ChannelTicksSound` | logger.cpp:74 | a channel's emission ticks lie in the window, are divisible by its divider, and ascend |
| `Scheduling.ChannelTicksComplete` | logger.cpp:74 | a tick is an emission tick of a channel exactly when it is in the window and its divider divides it |
| `Scheduling.ChannelTicksBounds` | logger.cpp:125-128 | any window of n ticks holds between n/d and ceil(n/d) emissions of a channel with divider d |
| `Scheduling.TickEventsComplete` | logger.cpp:72-80 | at one tick, channel p emits exactly when its divider divides the tick |
| `Scheduling.TickEventsOrdered` | logger.cpp:72-80 | within one tick the samples appear in table order |
| `Scheduling.SynchronizationPoint` | logger.cpp:72-80 | at a tick every divider divides, such as tick 0, every channel emits exactly once, in table order |
| `Scheduling.ScheduleOrdered` | logger.cpp:125-128 | the stream is ordered by tick, then by table position |
| `Scheduling.ScheduleComplete` | logger.cpp:69-81 | a (position, tick) slot is in the stream exactly when the position is in the table, the tick is in the window and the divider divides the tick |
| `Scheduling.SchedulePrefix` | logger.cpp:189-194 | the stream of a shorter window is a prefix of the stream of a longer one |
| `Scheduling.ScheduleSize` | logger.cpp:69-81 | the number of samples in the stream equals the sum over channels of each channel's emission ticks |
| `Samples.SampleValue` | logger.cpp:64-67 | a value is the channel id times 2^24 plus the number of whole periods elapsed by the tick, of the divider found at table index `id` as written or of the channel's own divider |
| `Samples.SampleValueUnpacks` | logger.cpp:64-67 | with the own-divider rule, an id below 256 and an index below 2^24 unpack back from a value as the top byte and the low 24 bits |
| `Samples.LookupByIdMisreadsDivider` | logger.cpp:66 | in the table of the program's usage example, the value computed by id lookup differs from the one computed with the channel's own divider |
| `Samples.RulesAgreeWhenIdsArePositions` | logger.cpp:64-67 | the two value rules agree when every channel's id is its own table position |
| `Samples.ColumnOfSchedule` | logger.cpp:69-81 | the values a channel receives in the encoded stream are its own values at its own emission ticks, in tick order |
| `Encoder.EncodedSpan` | logger.cpp:109 | the encoder visits all `duration` ticks exactly when `start + duration` fits in 32 bits, and none otherwise |
| `Encoder.EncodeChannel` | logger.cpp:74-79 | after channel i is visited, the file holds the values of the tick's due channels among 0..i in table order, and the block length has grown by 4 bytes for each |
| `Encoder.EncodeTick` | logger.cpp:69-81 | one tick appends the values of that tick's due channels in table order, and the block length grows by 4 per sample |
| `Encoder.EncodedFile` | logger.cpp:119-132 | the file is the start time, the block length as a signed 32-bit `int` (4 bytes per sample, exact while below 2^31, otherwise congruent modulo 2^32), and the values of the encoded schedule in order, one word each |
| `Encoder.Encode` | logger.cpp:106-135 | the written file is the start time, then the back-patched block length of 4 bytes per scheduled sample as a signed 32-bit `int`, then the values of the schedule in order |
| `Words.ToSigned` | logger.cpp:162 | a 32-bit word read as `int` lies in the signed range and is congruent to the word modulo 2^32 |
| `Words.ToSignedAdd` | logger.cpp:78 | an `int` accumulator that wraps after every addition ends at the wrap of the exact total, so the block length can be counted exactly and wrapped once |
| `Words.ToUnsigned` | logger.cpp:152-154 | a word read as `unsigned` lies in 0..2^32-1, is congruent to the word modulo 2^32, and is the word itself when in range |
| `Decoder.TruncDiv` | logger.cpp:176 | C division truncates toward zero: the remainder has the sign of the dividend and is smaller than the divisor |
| `Decoder.BytesPerSecond` | logger.cpp:170-174 | one second of the table takes at least 4 bytes per channel, so the estimate never divides by zero |
| `Decoder.OneSecondSize` | logger.cpp:169-174 | the loop computes 4 times the sum over the table of `1000 / divider`, at least 4 bytes per channel |
| `Decoder.WordsToRead` | logger.cpp:86-103 | with the `len > 0` guard the reader takes ceil(len / 4) words, and none for a length of zero or below |
| `Decoder.DecodedSpan` | logger.cpp:190-191 | the repaired reader visits `duration` ticks; the reader as written visits them all when `start + duration` fits in 32 bits, and none otherwise |
| `Decoder.CapacityBounds` | logger.cpp:185 | the buffer size as written is the number of whole divider periods in the estimate; repaired, it rounds up |
| `Decoder.Store` | logger.cpp:98-99 | storing a word appends it to channel i's buffer, keeps that buffer's id, frequency and capacity, and leaves every other buffer unchanged |
| `Decoder.OutputsSnoc` | logger.cpp:98-99 | storing the next word in the buffer of the channel due gives the buffers of the stream extended by that sample |
| `Decoder.Allocate` | logger.cpp:178-187 | one empty buffer per channel in table order, carrying its id, frequency `1000 / divider` and capacity |
| `Decoder.DecodeTick` | logger.cpp:83-104 | one tick reads a word for each due channel in table order while the remaining length is positive; a missing word is a short read |
| `Decoder.DecodeChannel` | logger.cpp:88-101 | for one channel at one tick, a due channel takes the next word into its buffer and 4 bytes off the remaining length, a missing word is a short read, and the reader's state stays that of the schedule read so far |
| `Decoder.ReadBlock` | logger.cpp:178-194 | the tick loop stops when the window ends or the length is used up, and produces the block's buffers or a short read |
| `Decoder.Decode` | logger.cpp:137-194 | reading a file gives a missing start time, a missing block length, a short read, or the buffers the schedule of the estimated window assigns to the words read |
| `Readback.WindowHoldsAtLeast` | logger.cpp:170-174 | any k whole seconds of the schedule hold at least k times the samples the decoder counts per second, for every divider in 1..1000 |
| `Readback.EstimateCoversBlock` | logger.cpp:175-176 | for a positive block length whose estimate fits in 32 bits, the estimate is a multiple of 1000 and is the least number of whole seconds whose bytes cover the block |
| `Readback.EstimatedWindowHolds` | logger.cpp:175-191 | when the estimate fits in 32 bits, the estimated window's schedule holds at least as many bytes of samples as the block length |
| `Readback.EncodedBlockReplayed` | logger.cpp:189-194 | on the encoder's file the reader takes exactly as many words as were written, and replays a schedule that starts with the encoder's |
| `Readback.RoundTrip` | logger.cpp:106-194 | decoding the encoder's file succeeds, and each channel's buffer is that channel's column of the encoded stream |
| `Readback.RoundTripPerChannel` | logger.cpp:106-194 | each decoded buffer carries its channel's id and holds that channel's values at its emission ticks, in tick order |
| `Readback.RoundTripChannel` | logger.cpp:178-194 | decoding the encoder's file gives channel p a buffer with its id, frequency `1000 / divider`, a capacity sized from the estimate of the encoded block, and that channel's values at its emission ticks |
| `Readback.OwnDividerCounts` | logger.cpp:64-67 | under the own-divider rule, a recording from tick 0 decodes, per channel, to its id in the top byte over the counter 0, 1, 2, ..., with ceil(duration / divider) entries |
| `Readback.TruncatedFileIsShortRead` | logger.cpp:92-97 | an encoded file cut anywhere inside its samples is refused as a short read |
| `Readback.DecodeWithinCapacity` | logger.cpp:185 | the repaired reader never overfills a buffer, for any file; the reader as written does not either when every divider divides 1000 and the estimate fits in 32 bits |
| `Readback.DecodeReadsWithinBlock` | logger.cpp:86-103 | the reader stores no more words than the file holds, no more than ceil(length / 4), and never more than the length when the length is a non-negative multiple of 4 |
| `Scenarios.SmallRecording` | logger.cpp:106-135 | 1000 Hz and 200 Hz channels over ticks 0..2 give four samples and a 16-byte block, with both channels at tick 0 in table order |
| `Scenarios.SmallRecordingReadBack` | logger.cpp:137-194 | that file decodes to three samples for the fast channel and one for the slow one, each in a buffer sized for one second |
| `Scenarios.SmallColumns` | logger.cpp:83-104 | in that stream, the fast channel receives the words 0, 1, 2 and the slow channel the single word `1 << 24` |
| `Scenarios.OverflowRate` | logger.cpp:169-176 | one second of the 100 Hz and 28 Hz table counts 100 + 28 samples, 512 bytes, so a 512-byte block is estimated at exactly 1000 ticks |
| `Scenarios.SourceCapacityOverflows` | logger.cpp:185 | with 100 Hz and 28 Hz channels over 981 ticks, the reader as written stores 29 samples in a 28-slot buffer |
| `Scenarios.RepairedCapacityHolds` | logger.cpp:185 | the repaired reader gives that channel 29 slots for its 29 samples |
| `Scenarios.WrappedEndDropsBlock` | logger.cpp:190-191 | starting ten ticks before 2^32, the reader as written computes a window end that wraps around, and reads none of the five samples in the file |
| `Scenarios.RepairedEndReadsBlock` | logger.cpp:190-191 | the repaired reader gets all five samples back |

## Findings

| source | as written | input that shows it | evidently intended | confidence | as-written member | corrected member |
|---|---|---|---|---|---|---|
| logger.cpp:66 | `get_value` receives the channel id, so the divider is read from `Channels[id]`, an index into the sorted table | usage example `-c0,1000 -c1,200 -c2,500`: channel 1's sample at tick 5 reads divider 2 and gives index 2 instead of 1; an id at or above the channel count reads outside the table | `(id << 24) + tick / divider` with the channel's own divider | high, not executed | `Samples.LookupByIdMisreadsDivider` | `Readback.OwnDividerCounts` |
| logger.cpp:185 | buffer size `duration / divider` rounds down | 100 Hz and 28 Hz (divider 35), start 0, duration 981: 512-byte block, estimate 1000 ticks, 28 slots for 29 samples | a buffer large enough for every sample the window can hold (round up) | medium, not executed | `Scenarios.SourceCapacityOverflows` | `Readback.DecodeWithinCapacity` |
| logger.cpp:190-191 | window end `start + duration` is an `unsigned` sum that can wrap below `start` | start 2^32 - 10, one 1000 Hz channel, duration 5: estimate 1000, end wraps to 990, nothing is read | visit `duration` ticks from `start` | medium, not executed | `Scenarios.WrappedEndDropsBlock` | `Scenarios.RepairedEndReadsBlock` |

## Left out

- File I/O (opening, seeking, closing, native-endian byte layout) is not modelled: the file is a sequence of 32-bit words, and a failed open is not modelled.
- Argument parsing, `usage`, console reporting of the decoded buffers, and the process exit codes are not modelled: parsed values are parameters, and errors are typed results.
- `malloc` and `free` are not modelled: a buffer is a sequence with a recorded capacity, and an overfilled buffer is a reported property, not undefined behaviour.
- `qsort` internals are not modelled: `SortChannels` is a reference insertion sort, and `SortedUnique` shows that any correct sort gives the same table.
- `Config.Register`: requires every request to be `Parsed`: id and frequency are `unsigned` values, and the frequency is positive, because a frequency of 0 divides by zero in the program.
- `Config.Configure`: requires at most 100 requests, because the program never checks `MAX_CHANNELS` and writes past its table.
- `Encoder.Encode`: `BlockLen += sizeof(value)` is summed in `size_t` and converted back to `int`, which wraps modulo 2^32 once 2^29 samples are written; the header holds the block length modulo 2^32 in the signed range, and only blocks below 2^31 bytes read back (`Readback.FitsInWords`). The loops count the length exactly and wrap it once when the header is written, which gives the same word as wrapping at every addition (`Words.ToSignedAdd`).
- `Samples.SampleValue`: the sum `(id << 24) + index` is unbounded, so an id of 256 or more, or a negative id, does not wrap as the 32-bit shift would; and a sum of 2^31 or more (any id from 128 up, or an index of 2^31 or more) is stored by the program as a negative `int`, while the model keeps the unbounded value. Decoding copies words unchanged, so the round trip is not affected.
- `Samples.SampleValue`: with `LookupById`, requires every id to be a table position, because the program reads an unused entry or past the table otherwise.
- `Decoder.RawEstimate`: `block_len + size1s - 1` and its product by 1000 are computed without bound, where the program's signed `int` overflow is undefined; the round trip requires both to stay below 2^31 (`Readback.FitsInWords`), but `Decoder.Decode` on an arbitrary file does not.
- `Readback.RoundTrip`: requires the block length, `block_len + size1s - 1` and the estimate to fit in a signed 32-bit `int` (`FitsInWords`), because the program's behaviour on their overflow is undefined.
- Duplicate channel ids are neither rejected nor modelled specially: the program does not check them, and the comparator's 0 result then only arises for identical descriptors.

=== FILE: arith.dfy ===
/** Integer division by a positive divisor. The schedule and the sample values are written
    with `Divides` and `Quot`, which compute `t % d == 0` and `t / d` by repeated subtraction:
    reasoning about them stays in linear arithmetic, and `QuotIsDiv` connects them to `%` and
    `/` where a proof needs the division facts below. */
module Arith {

  /** Quotient and remainder are the only pair with `x == q * d + r` and `0 <= r < d`. */
  lemma DivModUnique(x: int, d: int, q: int, r: int)
    requires d > 0 && 0 <= r < d && x == q * d + r
    ensures x / d == q && x % d == r
  {
    var q', r' := x / d, x % d;
    assert x == q' * d + r';
    if q' > q {
      assert (q' - q) * d >= d by { MulAtLeast(q' - q, d); }
    } else if q' < q {
      assert (q - q') * d >= d by { MulAtLeast(q - q', d); }
    }
  }

  /** A positive multiple of a positive number is at least that number. */
  lemma MulAtLeast(k: int, d: int)
    requires k >= 1 && d > 0
    ensures k * d >= d
  {
    assert k * d == (k - 1) * d + d;
  }

  /** Adding `k` whole periods adds `k` to the quotient and leaves the remainder alone. */
  lemma DivAddMultiple(y: int, k: int, d: int)
    requires d > 0
    ensures (y + k * d) / d == y / d + k
    ensures (y + k * d) % d == y % d
  {
    DivModUnique(y + k * d, d, y / d + k, y % d);
  }

  /** Rounding down: the quotient times the divisor is at most `x`, one more is above it. */
  lemma DivBounds(x: int, d: int)
    requires d > 0
    ensures (x / d) * d <= x < (x / d) * d + d
  {
  }

  /** Multiplying by `k` before rounding down loses no more than multiplying after it. */
  lemma ScaledQuotient(k: nat, x: nat, d: int)
    requires d > 0
    ensures (k * x) / d >= k * (x / d)
  {
    var q, r := x / d, x % d;
    var kq, kr := k * q, k * r;
    assert kr >= 0;
    assert k * x == kr + kq * d by {
      assert x == q * d + r;
      Distribute(k, q, d, r);
    }
    DivAddMultiple(kr, kq, d);
    assert kr / d >= 0;
  }

  /** `k * (q * d + r) == (k * q) * d + k * r`. */
  lemma Distribute(k: int, q: int, d: int, r: int)
    ensures k * (q * d + r) == (k * q) * d + k * r
  {
  }

  /** The quotient `t / d` of a non-negative `t`. */
  function Quot(t: nat, d: int): (q: nat)
    requires d > 0
    decreases t
  {
    if t < d then 0 else 1 + Quot(t - d, d)
  }

  /** The remainder `t % d` of a non-negative `t`. */
  function Rem(t: nat, d: int): (r: nat)
    requires d > 0
    decreases t
  {
    if t < d then t else Rem(t - d, d)
  }

  /** Whether `d` divides `t` (the recorder's test `t % d == 0`). */
  predicate Divides(d: int, t: nat)
    requires d > 0
  {
    Rem(t, d) == 0
  }

  /** `Quot` and `Rem` are integer division and remainder. */
  lemma {:induction false} QuotIsDiv(t: nat, d: int)
    requires d > 0
    ensures Quot(t, d) == t / d && Rem(t, d) == t % d
    ensures Divides(d, t) <==> t % d == 0
  {
    if t < d {
      DivModUnique(t, d, 0, t);
    } else {
      QuotIsDiv(t - d, d);
      DivAddMultiple(t - d, 1, d);
    }
  }

  /** Division with remainder: `t` is `Quot(t, d)` whole periods plus a remainder below `d`. */
  lemma {:induction false} QuotRem(t: nat, d: int)
    requires d > 0
    ensures t == Quot(t, d) * d + Rem(t, d) && Rem(t, d) < d
  {
    if t >= d {
      QuotRem(t - d, d);
      assert Quot(t, d) * d == Quot(t - d, d) * d + d;
    }
  }

  /** The remainder is below the divisor. */
  lemma {:induction false} RemBelow(t: nat, d: int)
    requires d > 0
    ensures Rem(t, d) < d
  {
    if t >= d {
      RemBelow(t - d, d);
    }
  }

  /** Adding `n` to `t` adds to the quotient what adding `n` to the remainder does. */
  lemma {:induction false} QuotShift(t: nat, n: nat, d: int)
    requires d > 0
    ensures Quot(t + n, d) == Quot(t, d) + Quot(Rem(t, d) + n, d)
  {
    if t >= d {
      QuotShift(t - d, n, d);
      assert t + n - d == (t - d) + n;
    }
  }

  /** The quotient is monotone. */
  lemma {:induction false} QuotMonotone(a: nat, b: nat, d: int)
    requires d > 0 && a <= b
    ensures Quot(a, d) <= Quot(b, d)
  {
    if a >= d {
      QuotMonotone(a - d, b - d, d);
    }
  }

  /** `k` more whole periods add `k` to the quotient. */
  lemma {:induction false} QuotPeriods(r: nat, k: nat, d: int)
    requires d > 0
    ensures Quot(r + k * d, d) == Quot(r, d) + k
    ensures Rem(r + k * d, d) == Rem(r, d)
  {
    if k > 0 {
      QuotPeriods(r, k - 1, d);
      assert r + k * d == (r + (k - 1) * d) + d;
    }
  }

  /** Rounding up: `Quot(x + d - 1, d)` is the quotient of `x`, plus one unless `d` divides `x`. */
  lemma QuotCeil(x: nat, d: int)
    requires d > 0
    ensures Quot(x + d - 1, d) == Quot(x, d) + if Divides(d, x) then 0 else 1
  {
    QuotShift(x, d - 1, d);
    QuotRem(x, d);
  }
}

=== FILE: channels.dfy ===
/** Channel descriptors, the divider table and the channel ordering (logger.cpp:6-62). */
module Channels {

  /** Base sampling rate in ticks per second; every divider is derived from it. */
  const BASE_F: int := 1000

  /** Size of the channel table; the registration code never checks it. */
  const MAX_CHANNELS: int := 100

  /** The frequencies of the divider table, which holds the dividers for all data acquisition
      frequencies, in table order. */
  const PERMITTED_FREQUENCIES: seq<int> := [1000, 500, 200, 100, 50, 20, 10, 5, 2, 1]

  /** Divider table: one divider of the base rate per supported frequency. */
  const F_VALUES: seq<int> := [
    BASE_F / 1000, BASE_F / 500, BASE_F / 200, BASE_F / 100, BASE_F / 50,
    BASE_F / 20,   BASE_F / 10,  BASE_F / 5,   BASE_F / 2,   BASE_F / 1
  ]

  /** One registered channel: it samples every `divider` ticks and is identified by `id`. */
  datatype Channel = Channel(divider: int, id: int)

  /** Every table entry divides the base rate exactly, and dividing the base rate by it
      gives back the supported frequency it stands for. */
  lemma FValuesDivideBase()
    ensures |F_VALUES| == |PERMITTED_FREQUENCIES| == 10
    ensures forall k :: 0 <= k < |F_VALUES| ==>
      && 1 <= F_VALUES[k] <= BASE_F
      && BASE_F % F_VALUES[k] == 0
      && BASE_F / F_VALUES[k] == PERMITTED_FREQUENCIES[k]
      && F_VALUES[k] * PERMITTED_FREQUENCIES[k] == BASE_F
  {
  }

  /** Three-way comparison used to sort the channel table: by divider, then by id. */
  function Compare(a: Channel, b: Channel): (c: int)
  {
    if a.divider < b.divider then -1
    else if a.divider > b.divider then 1
    else if a.id < b.id then -1
    else if a.id > b.id then 1
    else 0
  }

  /** `Compare` is a strict lexicographic total order on (divider, id): it answers 0 only
      for identical descriptors, swapping the arguments negates it, and it is transitive. */
  lemma CompareIsLexicographicOrder(a: Channel, b: Channel, c: Channel)
    ensures Compare(a, b) in {-1, 0, 1}
    ensures Compare(a, b) == 0 <==> a == b
    ensures Compare(a, b) == -Compare(b, a)
    ensures a.divider < b.divider ==> Compare(a, b) < 0
    ensures a.divider == b.divider && a.id < b.id ==> Compare(a, b) < 0
    ensures Compare(a, b) < 0 && Compare(b, c) < 0 ==> Compare(a, c) < 0
    ensures Compare(a, b) <= 0 && Compare(b, c) <= 0 ==> Compare(a, c) <= 0
  {
  }

  /** A channel table in the order the comparator asks for: no entry compares above the
      one after it. */
  ghost predicate Sorted(s: seq<Channel>)
  {
    |s| < 2 || (Compare(s[0], s[1]) <= 0 && Sorted(s[1..]))
  }

  /** Comparing neighbours is enough: a table is `Sorted` exactly when every entry compares
      at most equal to every later one. */
  lemma {:induction false} SortedPairwise(s: seq<Channel>)
    ensures Sorted(s) <==> forall i, j :: 0 <= i < j < |s| ==> Compare(s[i], s[j]) <= 0
  {
    if |s| >= 2 {
      SortedPairwise(s[1..]);
      if Sorted(s) {
        forall i, j | 0 <= i < j < |s| ensures Compare(s[i], s[j]) <= 0 {
          if i > 0 {
            assert s[i] == s[1..][i - 1] && s[j] == s[1..][j - 1];
          } else if j > 1 {
            assert s[1] == s[1..][0] && s[j] == s[1..][j - 1];
            CompareIsLexicographicOrder(s[0], s[1], s[j]);
          }
        }
      }
      if forall i, j :: 0 <= i < j < |s| ==> Compare(s[i], s[j]) <= 0 {
        forall i, j | 0 <= i < j < |s[1..]| ensures Compare(s[1..][i], s[1..][j]) <= 0 {
          assert s[1..][i] == s[i + 1] && s[1..][j] == s[j + 1];
        }
      }
    }
  }

  /** Inserts one descriptor ahead of the first entry it does not compare above. */
  function Insert(c: Channel, s: seq<Channel>): (r: seq<Channel>)
    ensures multiset(r) == multiset(s) + multiset{c}
    ensures |r| == |s| + 1
  {
    if |s| == 0 then [c]
    else if Compare(c, s[0]) <= 0 then [c] + s
    else
      assert s == [s[0]] + s[1..];
      [s[0]] + Insert(c, s[1..])
  }

  /** Inserting into a sorted table keeps it sorted. */
  lemma {:induction false} InsertSorted(c: Channel, s: seq<Channel>)
    requires Sorted(s)
    ensures Sorted(Insert(c, s))
  {
    if |s| > 0 {
      if Compare(c, s[0]) <= 0 {
        assert ([c] + s)[1..] == s;
      } else {
        var rest := Insert(c, s[1..]);
        InsertSorted(c, s[1..]);
        InsertBehind(c, s, rest);
      }
    }
  }

  /** The step of `InsertSorted` behind the head: the head compares below the descriptor
      and below the rest of the table, so it stays ahead of the insertion into the rest. */
  lemma InsertBehind(c: Channel, s: seq<Channel>, rest: seq<Channel>)
    requires Sorted(s) && |s| > 0 && Compare(c, s[0]) > 0
    requires rest == Insert(c, s[1..]) && Sorted(rest)
    ensures Sorted(Insert(c, s))
  {
    assert Insert(c, s) == [s[0]] + rest;
    assert ([s[0]] + rest)[1..] == rest;
    CompareIsLexicographicOrder(c, s[0], c);
    if |s| > 1 && Compare(c, s[1]) > 0 {
      assert rest[0] == s[1];
    }
  }

  /** The table the sort produces: a permutation of its input in comparator order. */
  function SortChannels(s: seq<Channel>): (r: seq<Channel>)
    ensures Sorted(r)
    ensures multiset(r) == multiset(s)
    ensures |r| == |s|
  {
    if |s| == 0 then []
    else
      assert s == [s[0]] + s[1..];
      var rest := SortChannels(s[1..]);
      InsertSorted(s[0], rest);
      Insert(s[0], rest)
  }

  /** The first element of a sorted table is below every element of it. */
  lemma {:induction false} SortedHeadIsLeast(s: seq<Channel>, x: Channel)
    requires Sorted(s) && x in multiset(s)
    ensures |s| > 0 && Compare(s[0], x) <= 0
  {
    assert s == [s[0]] + s[1..];
    if x != s[0] {
      assert x in multiset(s[1..]);
      SortedHeadIsLeast(s[1..], x);
      assert s[1..][0] == s[1];
      CompareIsLexicographicOrder(s[0], s[1], x);
    } else {
      CompareIsLexicographicOrder(x, x, x);
    }
  }

  /** Two sorted permutations of the same table are equal, so every correct sorting
      algorithm yields the same channel order on the encode and the decode side. */
  lemma {:induction false} SortedUnique(a: seq<Channel>, b: seq<Channel>)
    requires Sorted(a) && Sorted(b)
    requires multiset(a) == multiset(b)
    ensures a == b
  {
    assert |a| == |multiset(a)| == |multiset(b)| == |b|;
    if |a| > 0 {
      SortedHeads(a, b);
      var ta, tb := a[1..], b[1..];
      assert multiset(ta) == multiset(tb) by {
        TailMultiset(a);
        TailMultiset(b);
      }
      SortedUnique(ta, tb);
      assert a == [a[0]] + ta && b == [b[0]] + tb;
    }
  }

  /** Two sorted permutations of the same non-empty table start with the same entry. */
  lemma SortedHeads(a: seq<Channel>, b: seq<Channel>)
    requires Sorted(a) && Sorted(b) && |a| > 0 && |b| > 0
    requires multiset(a) == multiset(b)
    ensures a[0] == b[0]
  {
    assert a[0] in multiset(a) by { assert a == [a[0]] + a[1..]; }
    assert b[0] in multiset(b) by { assert b == [b[0]] + b[1..]; }
    SortedHeadIsLeast(b, a[0]);
    SortedHeadIsLeast(a, b[0]);
    CompareIsLexicographicOrder(a[0], b[0], a[0]);
  }

  /** Removing the head removes one occurrence of it from the multiset. */
  lemma TailMultiset(s: seq<Channel>)
    requires |s| > 0
    ensures multiset(s[1..]) == multiset(s) - multiset{s[0]}
  {
    assert s == [s[0]] + s[1..];
  }

  /** The ordering the recorder shows for three registrations: two 1000 Hz channels
      (divider 1) ordered by id ahead of one 500 Hz channel (divider 2). */
  lemma SortExample()
    ensures SortChannels([Channel(1, 2), Channel(2, 0), Channel(1, 1)])
         == [Channel(1, 1), Channel(1, 2), Channel(2, 0)]
  {
  }
}

=== FILE: config.dfy ===
/** Channel registration and the checks made once the command line has been read
    (logger.cpp:253-310). Argument parsing itself is not modelled: the parsed values
    arrive as parameters. */
module Config {
  import opened Outcomes
  import opened Channels
  import opened Words

  /** One `-c<id>,<frequency>` request, as parsed. */
  datatype ChannelSpec = ChannelSpec(id: int, frequency: int)

  /** What `sscanf("%u,%u")` can deliver: both fields are `unsigned`. A frequency of 0 is
      left out, because the recorder divides the base rate by it. */
  predicate Parsed(spec: ChannelSpec)
  {
    0 <= spec.id < TWO_32 && 0 < spec.frequency < TWO_32
  }

  /** Why a configuration is refused, one case per check the recorder makes. */
  datatype ConfigError =
    | FrequencyTooHigh(id: int, frequency: int)
    | NoFileName
    | NoChannels
    | NoDuration

  /** Everything encode and decode share for one run; the table is already sorted. */
  datatype Session = Session(fileName: string, start: nat, duration: nat, channels: seq<Channel>)

  /** A table both coders can work with: not empty, within the table size, every
      divider between 1 and the base rate. */
  ghost predicate ValidTable(chs: seq<Channel>)
  {
    && 0 < |chs| <= MAX_CHANNELS
    && forall p :: 0 <= p < |chs| ==> 1 <= chs[p].divider <= BASE_F
  }

  /** The descriptor registered for an accepted request: the divider is the base rate
      divided by the frequency, truncated, and the `unsigned` id is stored in an `int`
      field, so an id of `2^31` or more turns negative. */
  function ChannelFor(spec: ChannelSpec): (c: Channel)
    requires Parsed(spec) && spec.frequency <= BASE_F
    ensures -TWO_31 <= c.id < TWO_31 && (spec.id - c.id) % TWO_32 == 0
    ensures c.id == spec.id <==> spec.id < TWO_31
    ensures 1 <= c.divider <= BASE_F
    ensures c.divider * spec.frequency <= BASE_F < (c.divider + 1) * spec.frequency
  {
    Channel(BASE_F / spec.frequency, ToSigned(spec.id))
  }

  /** For a frequency from the supported list the registered divider is the table entry,
      and the frequency is recovered exactly from it. */
  lemma ChannelForPermitted(spec: ChannelSpec, k: nat)
    requires Parsed(spec) && k < |PERMITTED_FREQUENCIES| && spec.frequency == PERMITTED_FREQUENCIES[k]
    ensures ChannelFor(spec).divider == F_VALUES[k]
    ensures BASE_F % ChannelFor(spec).divider == 0
    ensures BASE_F / ChannelFor(spec).divider == spec.frequency
  {
    FValuesDivideBase();
  }

  /** No request asks for more than the base rate. */
  ghost predicate AllAccepted(specs: seq<ChannelSpec>)
  {
    forall k :: 0 <= k < |specs| ==> specs[k].frequency <= BASE_F
  }

  /** Request `k` is the first one whose frequency exceeds the base rate. */
  ghost predicate FirstRejected(specs: seq<ChannelSpec>, k: int)
    requires 0 <= k < |specs|
  {
    && specs[k].frequency > BASE_F
    && forall j :: 0 <= j < k ==> specs[j].frequency <= BASE_F
  }

  /** `e` reports the first rejected request of `specs`. */
  ghost predicate RejectedAt(specs: seq<ChannelSpec>, e: ConfigError)
  {
    exists k :: 0 <= k < |specs| && FirstRejected(specs, k)
      && e == FrequencyTooHigh(specs[k].id, specs[k].frequency)
  }

  /** An accepted first request leaves the first rejection of the rest the first overall. */
  lemma RejectedAtShift(specs: seq<ChannelSpec>, e: ConfigError)
    requires |specs| > 0 && specs[0].frequency <= BASE_F
    requires RejectedAt(specs[1..], e)
    ensures RejectedAt(specs, e)
  {
    var k :| 0 <= k < |specs[1..]| && FirstRejected(specs[1..], k)
      && e == FrequencyTooHigh(specs[1..][k].id, specs[1..][k].frequency);
    assert FirstRejected(specs, k + 1) by {
      forall j | 0 <= j < k + 1 ensures specs[j].frequency <= BASE_F {
        if j > 0 { assert specs[j] == specs[1..][j - 1]; }
      }
    }
  }

  /** Registers the requests in command-line order, stopping at the first frequency
      above the base rate. */
  function Register(specs: seq<ChannelSpec>): (r: Result<seq<Channel>, ConfigError>)
    requires forall k :: 0 <= k < |specs| ==> Parsed(specs[k])
    ensures r.Success? <==> forall k :: 0 <= k < |specs| ==> specs[k].frequency <= BASE_F
    ensures r.Success? ==> |r.value| == |specs|
    ensures r.Success? ==> forall k :: 0 <= k < |specs| ==> r.value[k] == ChannelFor(specs[k])
    ensures r.Failure? ==> RejectedAt(specs, r.error)
  {
    if |specs| == 0 then Success([])
    else if specs[0].frequency > BASE_F then Failure(FrequencyTooHigh(specs[0].id, specs[0].frequency))
    else
      match Register(specs[1..])
      case Failure(e) =>
        RejectedAtShift(specs, e);
        Failure(e)
      case Success(rest) =>
        assert forall k :: 1 <= k < |specs| ==> specs[k] == specs[1..][k - 1];
        Success([ChannelFor(specs[0])] + rest)
  }

  /** Builds the session the way the recorder does after reading its arguments: channel
      requests are checked as they are read, so a rejected frequency is reported first,
      naming the first rejected request; then the file name, the channel count and the
      duration are checked in that order, and finally the table is sorted. A frequency of
      zero and more than `MAX_CHANNELS` requests are not checked by the recorder; they are
      excluded here. */
  function Configure(fileName: Option<string>, start: nat, duration: nat, specs: seq<ChannelSpec>)
    : (r: Result<Session, ConfigError>)
    requires forall k :: 0 <= k < |specs| ==> Parsed(specs[k])
    requires |specs| <= MAX_CHANNELS
    ensures r.Success? <==>
      && (forall k :: 0 <= k < |specs| ==> specs[k].frequency <= BASE_F)
      && fileName.Some? && |specs| > 0 && duration > 0
    ensures r.Failure? && r.error.NoFileName? ==> Register(specs).Success? && fileName.None?
    ensures r.Failure? && r.error.NoChannels? ==> fileName.Some? && |specs| == 0
    ensures r.Failure? && r.error.NoDuration? ==> fileName.Some? && |specs| > 0 && duration == 0
    ensures r.Failure? && r.error.FrequencyTooHigh? ==> Register(specs).Failure?
    ensures !AllAccepted(specs) ==> r.Failure? && RejectedAt(specs, r.error)
    ensures AllAccepted(specs) && fileName.None? ==> r == Failure(NoFileName)
    ensures AllAccepted(specs) && fileName.Some? && |specs| == 0 ==> r == Failure(NoChannels)
    ensures AllAccepted(specs) && fileName.Some? && |specs| > 0 && duration == 0 ==> r == Failure(NoDuration)
    ensures r.Success? ==>
      && r.value.start == start && r.value.duration == duration && r.value.fileName == fileName.value
      && ValidTable(r.value.channels)
      && Sorted(r.value.channels)
      && multiset(r.value.channels) == multiset(Register(specs).value)
  {
    match Register(specs)
    case Failure(e) => Failure(e)
    case Success(chs) =>
      if fileName.None? then Failure(NoFileName)
      else if |chs| == 0 then Failure(NoChannels)
      else if duration == 0 then Failure(NoDuration)
      else
        var sorted := SortChannels(chs);
        SortedTableValid(specs, chs, sorted);
        Success(Session(fileName.value, start, duration, sorted))
  }

  /** Sorting a registered table keeps every divider between 1 and the base rate. */
  lemma SortedTableValid(specs: seq<ChannelSpec>, chs: seq<Channel>, sorted: seq<Channel>)
    requires forall k :: 0 <= k < |specs| ==> Parsed(specs[k]) && specs[k].frequency <= BASE_F
    requires 0 < |chs| == |specs| <= MAX_CHANNELS
    requires forall k :: 0 <= k < |specs| ==> chs[k] == ChannelFor(specs[k])
    requires multiset(sorted) == multiset(chs)
    ensures ValidTable(sorted)
  {
    assert |sorted| == |multiset(chs)| == |chs|;
    forall p | 0 <= p < |sorted| ensures 1 <= sorted[p].divider <= BASE_F {
      assert sorted[p] in multiset(chs);
      var j :| 0 <= j < |chs| && chs[j] == sorted[p];
    }
  }

  /** A three-channel example: ids 2, 0, 1 at 1000 Hz, 500 Hz and 1000 Hz end up ordered
      1, 2, 0. */
  lemma ConfigureSortExample()
    ensures
      var r := Configure(Some("data.dat"), 0, 3,
        [ChannelSpec(2, 1000), ChannelSpec(0, 500), ChannelSpec(1, 1000)]);
      r.Success? && r.value.channels == [Channel(1, 1), Channel(1, 2), Channel(2, 0)]
  {
    var specs := [ChannelSpec(2, 1000), ChannelSpec(0, 500), ChannelSpec(1, 1000)];
    var r := Register(specs);
    assert ChannelFor(specs[0]) == Channel(1, 2);
    assert ChannelFor(specs[1]) == Channel(2, 0);
    assert ChannelFor(specs[2]) == Channel(1, 1);
    assert r.value == [Channel(1, 2), Channel(2, 0), Channel(1, 1)];
    SortExample();
  }

  /** An id of `2^31` is stored as `-2^31` and so sorts ahead of id 0 at the same
      frequency: `-c2147483648,1000 -c0,1000` gives the table order -2^31, 0. */
  lemma ConfigureLargeIdSortsFirst()
    ensures
      var r := Configure(Some("data.dat"), 0, 3, [ChannelSpec(TWO_31, 1000), ChannelSpec(0, 1000)]);
      r.Success? && r.value.channels == [Channel(1, -TWO_31), Channel(1, 0)]
  {
    var specs := [ChannelSpec(TWO_31, 1000), ChannelSpec(0, 1000)];
    assert ChannelFor(specs[0]) == Channel(1, -TWO_31);
    assert ChannelFor(specs[1]) == Channel(1, 0);
    var sorted := [Channel(1, -TWO_31), Channel(1, 0)];
    assert Register(specs).value == sorted;
    SortedUnique(SortChannels(sorted), sorted);
  }
}

=== FILE: decoder.dfy ===
/** The recorder's reading side (logger.cpp:83-104, 137-215). The decoder re-derives the
    schedule from the sorted table, estimates the block's duration from its length, and
    hands every word it reads to the buffer of the channel that is due. Printing the
    buffers and freeing them are not modelled. */
module Decoder {
  import opened Outcomes
  import opened Channels
  import opened Config
  import opened Scheduling
  import opened Samples
  import opened Encoder
  import opened Arith
  import opened Words

  /** Why decoding stops, one case per exit of the reader: no start time (exit 10), no
      block length (exit 11), the data ends while the block length still asks for words
      (exit 12). */
  datatype DecodeError = NoStartTime | NoBlockLength | ShortRead

  /** The decoder as written, or with its loop bound and buffer sizes repaired: `Repaired`
      visits `duration` ticks without forming `start + duration` in 32 bits, and sizes every
      buffer by rounding up. */
  datatype Variant = AsWritten | Repaired

  /** One channel's result: id, frequency, buffer size in samples, samples read. */
  datatype Output = Output(id: int, frequency: int, capacity: int, data: seq<int>)

  /** C's integer division, which truncates toward zero (Dafny's rounds down). */
  function TruncDiv(a: int, b: int): (q: int)
    requires b > 0
    ensures a >= 0 ==> 0 <= a - q * b < b
    ensures a < 0 ==> -b < a - q * b <= 0
  {
    if a >= 0 then a / b else -((-a) / b)
  }

  /** Samples one second of the stream holds by the decoder's count: `BASE_F / divider`
      per channel, rounded down. */
  function SamplesPerSecond(chs: seq<Channel>): (n: nat)
    requires PositiveDividers(chs)
  {
    if |chs| == 0 then 0
    else SamplesPerSecond(chs[..|chs| - 1]) + BASE_F / chs[|chs| - 1].divider
  }

  /** A usable table counts at least one sample per channel per second. */
  lemma {:induction false} SamplesPerSecondAtLeast(chs: seq<Channel>)
    requires forall p :: 0 <= p < |chs| ==> 1 <= chs[p].divider <= BASE_F
    ensures SamplesPerSecond(chs) >= |chs|
  {
    if |chs| > 0 {
      var init := chs[..|chs| - 1];
      assert forall p :: 0 <= p < |init| ==> init[p] == chs[p];
      SamplesPerSecondAtLeast(init);
      var d := chs[|chs| - 1].divider;
      assert BASE_F / d >= 1 by { DivBounds(BASE_F, d); }
    }
  }

  /** Bytes one second of the stream takes, as the decoder computes it (`size1s`). */
  function BytesPerSecond(chs: seq<Channel>): (s: int)
    requires ValidTable(chs)
    ensures s >= WORD_SIZE * |chs| > 0
  {
    SamplesPerSecondAtLeast(chs);
    WORD_SIZE * SamplesPerSecond(chs)
  }

  /** The block length padded to round up by whole seconds (`block_len + size1s - 1`),
      an `int` sum in the recorder. */
  function PaddedLength(chs: seq<Channel>, blockLen: int): (len: int)
    requires ValidTable(chs)
  {
    blockLen + BytesPerSecond(chs) - 1
  }

  /** The duration estimate before it is stored as `unsigned`: whole seconds enough to hold
      the block, times the base rate, in `int` arithmetic. */
  function RawEstimate(chs: seq<Channel>, blockLen: int): (est: int)
    requires ValidTable(chs)
  {
    TruncDiv(PaddedLength(chs, blockLen), BytesPerSecond(chs)) * BASE_F
  }

  /** The duration estimate the decoder works with. */
  function EstimateDuration(chs: seq<Channel>, blockLen: int): (est: nat)
    requires ValidTable(chs)
    ensures est < TWO_32
  {
    ToUnsigned(RawEstimate(chs, blockLen))
  }

  /** Ticks the decoder visits at most. As written the bound `start + duration` is an
      `unsigned` sum: when it wraps below `start`, no tick is visited. */
  function DecodedSpan(variant: Variant, start: nat, est: nat): (n: nat)
    requires start < TWO_32 && est < TWO_32
    ensures variant.Repaired? ==> n == est
    ensures variant.AsWritten? ==> (n == est <==> start + est < TWO_32) && (n == est || n == 0)
  {
    if variant.Repaired? then est
    else
      var end := (start + est) % TWO_32;
      if end >= start then end - start else 0
  }

  /** Words the reader takes while the remaining length is positive: the block length
      divided by four, rounded up, and none for a length of zero or below. */
  function WordsToRead(blockLen: int): (w: nat)
    ensures blockLen > 0 ==> WORD_SIZE * (w - 1) < blockLen <= WORD_SIZE * w
    ensures blockLen <= 0 ==> w == 0
  {
    if blockLen <= 0 then 0 else (blockLen + 3) / 4
  }

  /** Buffer size of a channel in samples. As written it is `duration / divider`, rounded
      down; repaired, it is rounded up. */
  function Capacity(variant: Variant, est: nat, d: int): (slots: nat)
    requires d > 0
  {
    if variant.AsWritten? then Quot(est, d) else Quot(est + d - 1, d)
  }

  /** As written, a buffer holds the whole multiples of the divider in the window, the
      partial one left over; repaired, it also counts the partial one. */
  lemma CapacityBounds(variant: Variant, est: nat, d: int)
    requires d > 0
    ensures variant.AsWritten? ==> Capacity(variant, est, d) * d <= est < Capacity(variant, est, d) * d + d
    ensures variant.Repaired? ==> Capacity(variant, est, d) * d - d < est <= Capacity(variant, est, d) * d
  {
    QuotRem(est, d);
    QuotRem(est + d - 1, d);
  }

  /** The buffer of table position `p` after the samples `ev` have been read with values
      `vals`: the channel's id and frequency, its capacity, and its column of the values. */
  function Buffer(variant: Variant, chs: seq<Channel>, est: nat, ev: seq<Event>, vals: seq<int>, p: nat): (out: Output)
    requires ValidTable(chs) && |vals| == |ev| && p < |chs|
  {
    Output(chs[p].id, BASE_F / chs[p].divider, Capacity(variant, est, chs[p].divider), Column(ev, vals, p))
  }

  /** The decoder's buffers after the samples `ev` have been read with values `vals`. */
  function Outputs(variant: Variant, chs: seq<Channel>, est: nat, ev: seq<Event>, vals: seq<int>)
    : (r: seq<Output>)
    requires ValidTable(chs) && |vals| == |ev|
    ensures |r| == |chs|
  {
    seq(|chs|, p requires 0 <= p < |chs| => Buffer(variant, chs, est, ev, vals, p))
  }

  /** Stores one word in the buffer of channel `i` (`Outputs[i].data[Outputs[i].n++] = value`). */
  function Store(outputs: seq<Output>, i: nat, value: int): (r: seq<Output>)
    requires i < |outputs|
    ensures |r| == |outputs| && r[i].data == outputs[i].data + [value]
    ensures r[i].id == outputs[i].id && r[i].frequency == outputs[i].frequency
    ensures r[i].capacity == outputs[i].capacity
    ensures forall p :: 0 <= p < |r| && p != i ==> r[p] == outputs[p]
  {
    outputs[i := outputs[i].(data := outputs[i].data + [value])]
  }

  /** Number of words the decoder reads from a block: the schedule of its window, cut
      short once the block length is used up. */
  function ReadCount(ev: seq<Event>, blockLen: int): (c: nat)
    ensures c <= |ev| && c <= WordsToRead(blockLen)
    ensures c == |ev| || c == WordsToRead(blockLen)
  {
    if |ev| < WordsToRead(blockLen) then |ev| else WordsToRead(blockLen)
  }

  /** What reading a data file yields (`test_decode`): the header, then as many words as
      the schedule of the estimated window and the block length together ask for, each
      into the buffer of the channel due at that point. */
  function DecodeSpec(variant: Variant, chs: seq<Channel>, file: seq<int>): (r: Result<seq<Output>, DecodeError>)
    requires ValidTable(chs)
  {
    if |file| < 1 then Failure(NoStartTime)
    else if |file| < 2 then Failure(NoBlockLength)
    else
      var start, bl := ToUnsigned(file[0]), ToSigned(file[1]);
      BlockSpec(variant, chs, file, start, bl, EstimateDuration(chs, bl))
  }

  /** The data words of a block whose header is read, over a window of `est` ticks. */
  function BlockSpec(variant: Variant, chs: seq<Channel>, file: seq<int>, start: nat, bl: int, est: nat)
    : (r: Result<seq<Output>, DecodeError>)
    requires ValidTable(chs) && |file| >= 2 && start < TWO_32 && est < TWO_32
  {
    var ev := Schedule(chs, start, DecodedSpan(variant, start, est));
    var c := ReadCount(ev, bl);
    if |file| - 2 < c then Failure(ShortRead)
    else Success(Outputs(variant, chs, est, ev[..c], file[2..2 + c]))
  }

  /** The reader's state between two words. */
  datatype Reader = Reader(outputs: seq<Output>, cursor: nat, len: int)

  /** The reader has consumed the first `m` samples of the window's schedule: one word each
      from the file, four bytes each from the remaining length, one value each into the
      buffer of the sample's channel. */
  ghost predicate ReadSoFar(variant: Variant, chs: seq<Channel>, file: seq<int>, est: nat, bl: int,
                            window: seq<Event>, m: nat, rd: Reader)
    requires ValidTable(chs)
  {
    && m <= |window|
    && m <= WordsToRead(bl)
    && rd.len == bl - WORD_SIZE * m
    && rd.cursor == 2 + m <= |file|
    && rd.outputs == Outputs(variant, chs, est, window[..m], file[2..rd.cursor])
  }

  /** One sample read: the state after it is the state before it extended by that sample. */
  lemma ReadStep(variant: Variant, chs: seq<Channel>, file: seq<int>, est: nat, bl: int,
                 window: seq<Event>, m: nat, rd: Reader, i: nat)
    requires ValidTable(chs) && ReadSoFar(variant, chs, file, est, bl, window, m, rd)
    requires m < |window| && window[m].pos == i < |chs| && rd.len > 0 && rd.cursor < |file|
    ensures ReadSoFar(variant, chs, file, est, bl, window, m + 1,
      Reader(Store(rd.outputs, i, file[rd.cursor]), rd.cursor + 1, rd.len - WORD_SIZE))
  {
    assert window[..m + 1] == window[..m] + [window[m]];
    assert file[2..rd.cursor + 1] == file[2..rd.cursor] + [file[rd.cursor]];
    OutputsSnoc(variant, chs, est, window[..m], file[2..rd.cursor], window[m], file[rd.cursor]);
  }

  /** Storing the value of one more sample into its channel's buffer gives the buffers of
      the longer stream. */
  lemma OutputsSnoc(variant: Variant, chs: seq<Channel>, est: nat, ev: seq<Event>, vals: seq<int>, e: Event, v: int)
    requires ValidTable(chs) && |vals| == |ev| && e.pos < |chs|
    ensures Store(Outputs(variant, chs, est, ev, vals), e.pos, v) == Outputs(variant, chs, est, ev + [e], vals + [v])
  {
    forall p | 0 <= p < |chs|
      ensures Store(Outputs(variant, chs, est, ev, vals), e.pos, v)[p] == Outputs(variant, chs, est, ev + [e], vals + [v])[p]
    {
      ColumnSnoc(ev, vals, e, v, p);
    }
  }

  /** While tick `start + done` is scanned, the samples of the earlier ticks and of channels
      `0 .. i-1` at this tick are the first `mi` of the window; when channel `i` is due, its
      sample is the next one. */
  lemma ScanStep(chs: seq<Channel>, start: nat, span: nat, window: seq<Event>, done: nat, tick: nat,
                 i: nat, m: nat, mi: nat)
    requires PositiveDividers(chs) && window == Schedule(chs, start, span)
    requires done < span && i < |chs| && tick == start + done
    requires m == |Schedule(chs, start, done)| && mi == m + |TickEvents(chs, tick, i)|
    ensures Divides(chs[i].divider, tick) ==> mi < |window| && window[mi].pos == i
    ensures mi + (if Divides(chs[i].divider, tick) then 1 else 0) == m + |TickEvents(chs, tick, i + 1)|
  {
    var before, now := Schedule(chs, start, done), TickEvents(chs, tick, |chs|);
    TickEventsPrefix(chs, tick, i + 1, |chs|);
    assert before + now <= window by {
      ScheduleStep(chs, start, done + 1);
      SchedulePrefix(chs, start, done + 1, span);
    }
    if Divides(chs[i].divider, tick) {
      assert TickEvents(chs, tick, i + 1)[|TickEvents(chs, tick, i)|] == Event(i, tick);
      assert now[mi - m] == Event(i, tick);
      assert (before + now)[mi] == Event(i, tick);
    }
  }

  /** After the last channel of a tick, the scanned samples are those of one more tick. */
  lemma TickScanned(chs: seq<Channel>, start: nat, done: nat)
    requires PositiveDividers(chs)
    ensures |Schedule(chs, start, done)| + |TickEvents(chs, start + done, |chs|)| == |Schedule(chs, start, done + 1)|
  {
    ScheduleStep(chs, start, done + 1);
  }

  /** A due sample with no word left in the file is a short read of the block. */
  lemma ShortReadFound(file: seq<int>, bl: int, window: seq<Event>, m: nat, cursor: nat)
    requires cursor == 2 + m && cursor >= |file| && bl - WORD_SIZE * m > 0
    requires m + 1 <= |window|
    ensures |file| - 2 < ReadCount(window, bl)
  {
  }

  /** One tick of decoding (`do_decode`): every channel due at the tick takes the next word,
      in table order, as long as the remaining length is positive. */
  method DecodeTick(variant: Variant, chs: seq<Channel>, file: seq<int>, est: nat, bl: int,
                    start: nat, ghost span: nat, ghost done: nat, tick: nat, rd: Reader, ghost m: nat)
    returns (r: Result<Reader, DecodeError>, ghost m': nat)
    requires ValidTable(chs) && tick == start + done && done < span
    requires ReadSoFar(variant, chs, file, est, bl, Schedule(chs, start, span), m, rd)
    requires m == |Schedule(chs, start, done)| && rd.len > 0
    ensures r.Failure? ==> r.error == ShortRead && |file| - 2 < ReadCount(Schedule(chs, start, span), bl)
    ensures r.Success? ==> ReadSoFar(variant, chs, file, est, bl, Schedule(chs, start, span), m', r.value)
    ensures r.Success? && r.value.len > 0 ==> m' == |Schedule(chs, start, done + 1)|
  {
    ghost var window := Schedule(chs, start, span);
    var cur := rd;
    m' := m;
    var i := 0;
    while i < |chs| && cur.len > 0
      invariant 0 <= i <= |chs|
      invariant ReadSoFar(variant, chs, file, est, bl, window, m', cur)
      invariant cur.len > 0 ==> m' == m + |TickEvents(chs, tick, i)|
    {
      var next;
      next, m' := DecodeChannel(variant, chs, file, est, bl, start, span, window, done, tick, i, m, m', cur);
      if next.Failure? {
        return Failure(ShortRead), m';
      }
      cur := next.value;
      i := i + 1;
    }
    if cur.len > 0 {
      TickScanned(chs, start, done);
    }
    return Success(cur), m';
  }

  /** Channel `i` at one tick: when its divider divides the tick it takes the next word
      into its buffer, or fails if the data ended before it; otherwise nothing changes. */
  method DecodeChannel(variant: Variant, chs: seq<Channel>, file: seq<int>, est: nat, bl: int,
                       start: nat, ghost span: nat, ghost window: seq<Event>, ghost done: nat,
                       tick: nat, i: nat, ghost m: nat, ghost mi: nat, rd: Reader)
    returns (r: Result<Reader, DecodeError>, ghost mi': nat)
    requires ValidTable(chs) && window == Schedule(chs, start, span)
    requires done < span && i < |chs| && tick == start + done
    requires m == |Schedule(chs, start, done)| && mi == m + |TickEvents(chs, tick, i)|
    requires ReadSoFar(variant, chs, file, est, bl, window, mi, rd) && rd.len > 0
    ensures r.Failure? ==> r.error == ShortRead && |file| - 2 < ReadCount(window, bl)
    ensures r.Success? ==>
      && mi' == m + |TickEvents(chs, tick, i + 1)|
      && ReadSoFar(variant, chs, file, est, bl, window, mi', r.value)
  {
    ChannelStep(variant, chs, file, est, bl, start, span, window, done, tick, i, m, mi, rd);
    var due := IsDue(tick, chs[i].divider);
    if !due {
      return Success(rd), mi;
    }
    if rd.cursor >= |file| {
      return Failure(ShortRead), mi;
    }
    return Success(Reader(Store(rd.outputs, i, file[rd.cursor]), rd.cursor + 1, rd.len - WORD_SIZE)), mi + 1;
  }

  /** One channel of one tick: a channel that is not due leaves the reader alone; a due
      channel takes the next word, or finds the data ended short of the block length. */
  lemma ChannelStep(variant: Variant, chs: seq<Channel>, file: seq<int>, est: nat, bl: int,
                    start: nat, span: nat, window: seq<Event>, done: nat, tick: nat, i: nat,
                    m: nat, mi: nat, rd: Reader)
    requires ValidTable(chs) && window == Schedule(chs, start, span)
    requires done < span && i < |chs| && tick == start + done
    requires m == |Schedule(chs, start, done)| && mi == m + |TickEvents(chs, tick, i)|
    requires ReadSoFar(variant, chs, file, est, bl, window, mi, rd) && rd.len > 0
    ensures !Divides(chs[i].divider, tick) ==> mi == m + |TickEvents(chs, tick, i + 1)|
    ensures Divides(chs[i].divider, tick) && rd.cursor >= |file| ==> |file| - 2 < ReadCount(window, bl)
    ensures Divides(chs[i].divider, tick) && rd.cursor < |file| ==>
      && mi + 1 == m + |TickEvents(chs, tick, i + 1)|
      && ReadSoFar(variant, chs, file, est, bl, window, mi + 1,
           Reader(Store(rd.outputs, i, file[rd.cursor]), rd.cursor + 1, rd.len - WORD_SIZE))
  {
    ScanStep(chs, start, span, window, done, tick, i, m, mi);
    if Divides(chs[i].divider, tick) {
      if rd.cursor >= |file| {
        ShortReadFound(file, bl, window, mi, rd.cursor);
      } else {
        ReadStep(variant, chs, file, est, bl, window, mi, rd, i);
      }
    }
  }

  /** Reads a data file back (`test_decode`) with the channel table both sides share. */
  method Decode(variant: Variant, chs: seq<Channel>, file: seq<int>) returns (r: Result<seq<Output>, DecodeError>)
    requires ValidTable(chs)
    ensures r == DecodeSpec(variant, chs, file)
  {
    if |file| < 1 {
      return Failure(NoStartTime);
    }
    var start := ToUnsigned(file[0]);
    if |file| < 2 {
      return Failure(NoBlockLength);
    }
    var blockLen := ToSigned(file[1]);
    var size1s := OneSecondSize(chs);
    var duration := ToUnsigned(TruncDiv(blockLen + size1s - 1, size1s) * BASE_F);
    r := ReadBlock(variant, chs, file, start, blockLen, duration);
  }

  /** The byte size of one second of the stream (`size1s`), summed over the table. */
  method OneSecondSize(chs: seq<Channel>) returns (size1s: int)
    requires ValidTable(chs)
    ensures size1s == BytesPerSecond(chs)
  {
    size1s := 0;
    var i := 0;
    while i < |chs|
      invariant 0 <= i <= |chs|
      invariant size1s == WORD_SIZE * SamplesPerSecond(chs[..i])
    {
      assert chs[..i + 1][..i] == chs[..i];
      size1s := size1s + (BASE_F / chs[i].divider) * WORD_SIZE;
      i := i + 1;
    }
    assert chs[..|chs|] == chs;
  }

  /** One empty buffer per channel, in table order, sized for the estimated duration. */
  method Allocate(variant: Variant, chs: seq<Channel>, duration: nat) returns (outputs: seq<Output>)
    requires ValidTable(chs)
    ensures outputs == Outputs(variant, chs, duration, [], [])
  {
    outputs := [];
    var i := 0;
    while i < |chs|
      invariant 0 <= i <= |chs|
      invariant |outputs| == i
      invariant forall p :: 0 <= p < i ==>
        outputs[p] == Output(chs[p].id, BASE_F / chs[p].divider, Capacity(variant, duration, chs[p].divider), [])
    {
      outputs := outputs + [Output(chs[i].id, BASE_F / chs[i].divider, Capacity(variant, duration, chs[i].divider), [])];
      i := i + 1;
    }
    assert forall p :: 0 <= p < |chs| ==> outputs[p] == Outputs(variant, chs, duration, [], [])[p];
  }

  /** Allocates the buffers and reads the data words of a block (`test_decode` after the
      header), stopping when the window ends or the block length is used up. */
  method ReadBlock(variant: Variant, chs: seq<Channel>, file: seq<int>, start: nat, blockLen: int, duration: nat)
    returns (r: Result<seq<Output>, DecodeError>)
    requires ValidTable(chs) && |file| >= 2 && start < TWO_32 && duration < TWO_32
    ensures r == BlockSpec(variant, chs, file, start, blockLen, duration)
  {
    var outputs := Allocate(variant, chs, duration);
    var end := if variant.AsWritten? then (start + duration) % TWO_32 else start + duration;
    ghost var span := DecodedSpan(variant, start, duration);
    ghost var window := Schedule(chs, start, span);
    ghost var done: nat := 0;
    ghost var m: nat := 0;
    var rd := Reader(outputs, 2, blockLen);
    var tick := start;
    assert ReadSoFar(variant, chs, file, duration, blockLen, window, 0, rd) by {
      assert window[..0] == [] && file[2..2] == [];
    }
    assert end < start ==> span == 0;
    assert end >= start ==> span == end - start;
    while tick < end && rd.len > 0
      invariant tick == start + done && done <= span
      invariant tick >= end ==> done == span
      invariant ReadSoFar(variant, chs, file, duration, blockLen, window, m, rd)
      invariant rd.len > 0 ==> m == |Schedule(chs, start, done)|
    {
      var res;
      res, m := DecodeTick(variant, chs, file, duration, blockLen, start, span, done, tick, rd, m);
      if res.Failure? {
        BlockShortRead(variant, chs, file, start, blockLen, duration);
        return Failure(ShortRead);
      }
      rd := res.value;
      tick, done := tick + 1, done + 1;
    }
    assert rd.len > 0 ==> done == span;
    BlockRead(variant, chs, file, start, blockLen, duration, m, rd);
    return Success(rd.outputs);
  }

  /** A block whose schedule asks for more words than the file holds is a short read. */
  lemma BlockShortRead(variant: Variant, chs: seq<Channel>, file: seq<int>, start: nat, bl: int, est: nat)
    requires ValidTable(chs) && |file| >= 2 && start < TWO_32 && est < TWO_32
    requires |file| - 2 < ReadCount(Schedule(chs, start, DecodedSpan(variant, start, est)), bl)
    ensures BlockSpec(variant, chs, file, start, bl, est) == Failure(ShortRead)
  {
  }

  /** A reader that stops after the words the block asks for holds the block's buffers. */
  lemma BlockRead(variant: Variant, chs: seq<Channel>, file: seq<int>, start: nat, bl: int, est: nat,
                  m: nat, rd: Reader)
    requires ValidTable(chs) && |file| >= 2 && start < TWO_32 && est < TWO_32
    requires var window := Schedule(chs, start, DecodedSpan(variant, start, est));
      && ReadSoFar(variant, chs, file, est, bl, window, m, rd)
      && (rd.len > 0 ==> m == |window|)
    ensures BlockSpec(variant, chs, file, start, bl, est) == Success(rd.outputs)
  {
    var window := Schedule(chs, start, DecodedSpan(variant, start, est));
  }
}

=== FILE: encoder.dfy ===
/** The recorder's writing side (logger.cpp:69-81, 106-135): a header of the start time and
    the block length in bytes, then one 32-bit word per scheduled sample. The data file is
    modelled as its sequence of 32-bit words; opening, seeking and closing it are not. */
module Encoder {
  import opened Channels
  import opened Scheduling
  import opened Samples
  import opened Arith
  import opened Seqs
  import opened Words

  /** Bytes per sample and per header field: `sizeof(int)`. */
  const WORD_SIZE: int := 4

  /** Ticks the encoder actually visits. Its loop bound `Start + Duration` is computed in
      32-bit unsigned arithmetic: when the window reaches past `2^32 - 1` the bound wraps
      below `Start` and no tick is visited. */
  function EncodedSpan(start: nat, duration: nat): (n: nat)
    requires start < TWO_32 && duration < TWO_32
    ensures n == duration || n == 0
    ensures n == duration <==> start + duration < TWO_32
  {
    var end := (start + duration) % TWO_32;
    if end >= start then end - start else 0
  }

  /** The samples the encoder writes, in file order. */
  function EncodedSchedule(chs: seq<Channel>, start: nat, duration: nat): (ev: seq<Event>)
    requires PositiveDividers(chs) && start < TWO_32 && duration < TWO_32
  {
    Schedule(chs, start, EncodedSpan(start, duration))
  }

  /** The file the encoder leaves behind: start time, block length in bytes (four per
      sample, kept in an `int`), then the sample values in schedule order. */
  function EncodedFile(rule: ValueRule, chs: seq<Channel>, start: nat, duration: nat): (file: seq<int>)
    requires RuleApplies(rule, chs) && start < TWO_32 && duration < TWO_32
    ensures |file| == 2 + |EncodedSchedule(chs, start, duration)|
    ensures file[0] == start
    ensures -TWO_31 <= file[1] < TWO_31 && (file[1] - WORD_SIZE * (|file| - 2)) % TWO_32 == 0
    ensures WORD_SIZE * (|file| - 2) < TWO_31 ==> file[1] == WORD_SIZE * (|file| - 2)
    ensures PositionsBelow(EncodedSchedule(chs, start, duration), |chs|)
    ensures file[2..] == Values(rule, chs, EncodedSchedule(chs, start, duration))
  {
    var ev := EncodedSchedule(chs, start, duration);
    SchedulePositions(chs, start, EncodedSpan(start, duration));
    [start, ToSigned(WORD_SIZE * |ev|)] + Values(rule, chs, ev)
  }

  /** One tick of encoding (`do_encode`): every channel whose divider divides the tick
      appends its value, in table order, and the block length grows by four bytes each. */
  method EncodeTick(rule: ValueRule, chs: seq<Channel>, tick: nat, file: seq<int>, blockLen: int)
    returns (file': seq<int>, blockLen': int)
    requires RuleApplies(rule, chs)
    ensures PositionsBelow(TickEvents(chs, tick, |chs|), |chs|)
    ensures file' == file + Values(rule, chs, TickEvents(chs, tick, |chs|))
    ensures blockLen' == blockLen + WORD_SIZE * |TickEvents(chs, tick, |chs|)|
  {
    file', blockLen' := file, blockLen;
    var i := 0;
    while i < |chs|
      invariant 0 <= i <= |chs|
      invariant PositionsBelow(TickEvents(chs, tick, i), |chs|)
      invariant file' == file + Values(rule, chs, TickEvents(chs, tick, i))
      invariant blockLen' == blockLen + WORD_SIZE * |TickEvents(chs, tick, i)|
    {
      file', blockLen' := EncodeChannel(rule, chs, tick, i, file, blockLen, file', blockLen');
      i := i + 1;
    }
  }

  /** Channel `i` at one tick: when its divider divides the tick it appends its value and
      adds four bytes to the block length; the written prefix is then that of `i + 1`
      channels. */
  method EncodeChannel(rule: ValueRule, chs: seq<Channel>, tick: nat, i: nat,
                       file: seq<int>, blockLen: int, cur: seq<int>, curLen: int)
    returns (next: seq<int>, nextLen: int)
    requires RuleApplies(rule, chs) && i < |chs|
    requires PositionsBelow(TickEvents(chs, tick, i), |chs|)
    requires cur == file + Values(rule, chs, TickEvents(chs, tick, i))
    requires curLen == blockLen + WORD_SIZE * |TickEvents(chs, tick, i)|
    ensures PositionsBelow(TickEvents(chs, tick, i + 1), |chs|)
    ensures next == file + Values(rule, chs, TickEvents(chs, tick, i + 1))
    ensures nextLen == blockLen + WORD_SIZE * |TickEvents(chs, tick, i + 1)|
  {
    EncodeStep(rule, chs, tick, i, file, cur);
    next, nextLen := cur, curLen;
    var due := IsDue(tick, chs[i].divider);
    if due {
      next := cur + [SampleValue(rule, chs, Event(i, tick))];
      nextLen := curLen + WORD_SIZE;
    }
  }

  /** One channel of one tick: a due channel appends its value, and the tick's samples
      grow by that channel's sample. */
  lemma EncodeStep(rule: ValueRule, chs: seq<Channel>, tick: nat, i: nat, file: seq<int>, cur: seq<int>)
    requires RuleApplies(rule, chs) && i < |chs|
    requires PositionsBelow(TickEvents(chs, tick, i), |chs|)
    requires cur == file + Values(rule, chs, TickEvents(chs, tick, i))
    ensures PositionsBelow(TickEvents(chs, tick, i + 1), |chs|)
    ensures Divides(chs[i].divider, tick) ==>
      && |TickEvents(chs, tick, i + 1)| == |TickEvents(chs, tick, i)| + 1
      && cur + [SampleValue(rule, chs, Event(i, tick))] == file + Values(rule, chs, TickEvents(chs, tick, i + 1))
    ensures !Divides(chs[i].divider, tick) ==>
      && |TickEvents(chs, tick, i + 1)| == |TickEvents(chs, tick, i)|
      && cur == file + Values(rule, chs, TickEvents(chs, tick, i + 1))
  {
    var prev := TickEvents(chs, tick, i);
    if Divides(chs[i].divider, tick) {
      var e := Event(i, tick);
      assert TickEvents(chs, tick, i + 1) == prev + [e];
      ValuesSnoc(rule, chs, prev, e);
      AppendAssoc(file, Values(rule, chs, prev), [SampleValue(rule, chs, e)]);
    } else {
      assert TickEvents(chs, tick, i + 1) == prev;
    }
  }

  /** The file after `n + 1` ticks is the file after `n` ticks followed by the values of
      tick `start + n`, and the block length grows by one word per value. */
  lemma EncodedPrefixStep(rule: ValueRule, chs: seq<Channel>, start: nat, n: nat,
                          file: seq<int>, blockLen: int, file': seq<int>, blockLen': int)
    requires RuleApplies(rule, chs) && PositionsBelow(Schedule(chs, start, n), |chs|)
    requires file == [start, 0] + Values(rule, chs, Schedule(chs, start, n))
    requires blockLen == WORD_SIZE * |Schedule(chs, start, n)|
    requires PositionsBelow(TickEvents(chs, start + n, |chs|), |chs|)
    requires file' == file + Values(rule, chs, TickEvents(chs, start + n, |chs|))
    requires blockLen' == blockLen + WORD_SIZE * |TickEvents(chs, start + n, |chs|)|
    ensures PositionsBelow(Schedule(chs, start, n + 1), |chs|)
    ensures file' == [start, 0] + Values(rule, chs, Schedule(chs, start, n + 1))
    ensures blockLen' == WORD_SIZE * |Schedule(chs, start, n + 1)|
  {
    var prev := Schedule(chs, start, n);
    var now := TickEvents(chs, start + n, |chs|);
    assert Schedule(chs, start, n + 1) == prev + now by {
      ScheduleStep(chs, start, n + 1);
    }
    ValuesAppend(rule, chs, prev, now);
    var a, b, c := [start, 0], Values(rule, chs, prev), Values(rule, chs, now);
    AppendAssoc(a, b, c);
  }

  /** Writing the block length, as an `int`, over the placeholder completes the file. */
  lemma PatchBlockLength(rule: ValueRule, chs: seq<Channel>, start: nat, duration: nat, file: seq<int>, blockLen: int)
    requires RuleApplies(rule, chs) && start < TWO_32 && duration < TWO_32
    requires PositionsBelow(EncodedSchedule(chs, start, duration), |chs|)
    requires file == [start, 0] + Values(rule, chs, EncodedSchedule(chs, start, duration))
    requires blockLen == WORD_SIZE * |EncodedSchedule(chs, start, duration)|
    ensures file[1 := ToSigned(blockLen)] == EncodedFile(rule, chs, start, duration)
  {
  }

  /** Writes the whole block (`test_encode`): the start time, a placeholder block length,
      every tick of the window, and finally the real block length over the placeholder.
      The program sums each step in `size_t` and converts back to `int`, which wraps modulo
      `2^32`; counting exactly and wrapping once when the header is written gives the same
      word (`ToSignedAdd`). */
  method Encode(rule: ValueRule, chs: seq<Channel>, start: nat, duration: nat) returns (file: seq<int>)
    requires RuleApplies(rule, chs) && start < TWO_32 && duration < TWO_32
    ensures file == EncodedFile(rule, chs, start, duration)
  {
    var blockLen := 0;
    file := [start, blockLen];
    var end := (start + duration) % TWO_32;
    var tick := start;
    ghost var n := EncodedSpan(start, duration);
    ghost var done: nat := 0;
    while tick < end
      invariant tick == start + done && done <= n
      invariant n == if end >= start then end - start else 0
      invariant PositionsBelow(Schedule(chs, start, done), |chs|)
      invariant file == [start, 0] + Values(rule, chs, Schedule(chs, start, done))
      invariant blockLen == WORD_SIZE * |Schedule(chs, start, done)|
    {
      var file', blockLen' := EncodeTick(rule, chs, tick, file, blockLen);
      EncodedPrefixStep(rule, chs, start, done, file, blockLen, file', blockLen');
      file, blockLen := file', blockLen';
      tick, done := tick + 1, done + 1;
    }
    assert done == n;
    assert Schedule(chs, start, done) == EncodedSchedule(chs, start, duration);
    PatchBlockLength(rule, chs, start, duration, file, blockLen);
    file := file[1 := ToSigned(blockLen)];
  }
}

=== FILE: outcomes.dfy ===
/** Result types shared by the registry, the encoder and the decoder. */
module Outcomes {

  /** An optional value, used for the data-file name that may be absent from the configuration. */
  datatype Option<T> = None | Some(value: T)

  /** Either a value or the error that stopped the operation. */
  datatype Result<T, E> = Success(value: T) | Failure(error: E)
}

=== FILE: readback.dfy ===
/** What the reader makes of the recorder's file (logger.cpp:106-215): the duration estimate
    covers the block, the estimated window replays the encoder's stream first, and so every
    channel's buffer receives exactly the values that channel emitted, in tick order. */
module Readback {
  import opened Outcomes
  import opened Channels
  import opened Words
  import opened Config
  import opened Arith
  import opened Scheduling
  import opened Samples
  import opened Encoder
  import opened Decoder

  // ---------------------------------------------------------------------------
  // The duration estimate

  /** `k` seconds of a channel with divider `d` hold at least `k` times the samples the
      decoder counts for one second. */
  lemma PeriodsAtLeast(d: int, k: nat)
    requires 1 <= d <= BASE_F
    ensures (k * BASE_F) / d >= k * (BASE_F / d)
  {
    ScaledQuotient(k, BASE_F, d);
  }

  /** Channel by channel, `k` whole seconds hold at least `k` times the samples per second. */
  lemma {:induction false} EmissionsAtLeast(chs: seq<Channel>, start: nat, k: nat)
    requires forall p :: 0 <= p < |chs| ==> 1 <= chs[p].divider <= BASE_F
    ensures TotalEmissions(chs, start, k * BASE_F) >= k * SamplesPerSecond(chs)
  {
    if |chs| > 0 {
      var init, d := chs[..|chs| - 1], chs[|chs| - 1].divider;
      var n := k * BASE_F;
      assert forall p :: 0 <= p < |init| ==> init[p] == chs[p];
      EmissionsAtLeast(init, start, k);
      ChannelTicksBounds(d, start, n);
      PeriodsAtLeast(d, k);
      var a, b := SamplesPerSecond(init), BASE_F / d;
      assert SamplesPerSecond(chs) == a + b;
      assert k * (a + b) == k * a + k * b by { Distribute(k, a, 1, b); }
    }
  }

  /** Any window of `k` whole seconds, wherever it starts, holds at least `k` times the
      samples the decoder counts per second, whether or not the dividers divide the base
      rate. */
  lemma WindowHoldsAtLeast(chs: seq<Channel>, start: nat, k: nat)
    requires ValidTable(chs)
    ensures |Schedule(chs, start, k * BASE_F)| >= k * SamplesPerSecond(chs)
  {
    ScheduleSize(chs, start, k * BASE_F);
    EmissionsAtLeast(chs, start, k);
  }

  /** For a positive block length whose estimate fits in 32 bits, the estimate is the least
      number of whole seconds whose bytes cover the block, in ticks. */
  lemma EstimateCoversBlock(chs: seq<Channel>, bl: int)
    requires ValidTable(chs) && bl > 0 && RawEstimate(chs, bl) < TWO_32
    ensures EstimateDuration(chs, bl) % BASE_F == 0
    ensures var k := EstimateDuration(chs, bl) / BASE_F;
      k * BytesPerSecond(chs) >= bl > (k - 1) * BytesPerSecond(chs)
  {
    var s := BytesPerSecond(chs);
    var k := (bl + s - 1) / s;
    DivBounds(bl + s - 1, s);
    assert RawEstimate(chs, bl) == k * BASE_F;
    DivModUnique(k * BASE_F, BASE_F, k, 0);
  }

  // ---------------------------------------------------------------------------
  // Round trip

  /** The 32-bit quantities of one recording stay in range: the window end, the block
      length as a signed `int`, the two signed `int` steps of the estimate
      (`block_len + size1s - 1` and the product by the base rate), and (for the reader as
      written) the end of the estimated window. */
  ghost predicate FitsInWords(variant: Variant, chs: seq<Channel>, start: nat, duration: nat)
    requires ValidTable(chs)
  {
    && start < TWO_32 && duration < TWO_32
    && var bl := WORD_SIZE * |EncodedSchedule(chs, start, duration)|;
       && PaddedLength(chs, bl) < TWO_31
       && RawEstimate(chs, bl) < TWO_31
       && (variant.AsWritten? ==> start + EstimateDuration(chs, bl) < TWO_32)
  }

  /** A sequence with two prefixes: the shorter is a prefix of the longer. */
  lemma PrefixOfPrefix(a: seq<Event>, b: seq<Event>, c: seq<Event>)
    requires a <= c && b <= c && |a| <= |b|
    ensures a <= b
  {
    assert forall k :: 0 <= k < |a| ==> a[k] == c[k] == b[k];
  }

  /** Reading the encoder's block: the reader takes exactly as many words as the encoder
      wrote, and the schedule it replays starts with the encoder's. */
  lemma EncodedBlockReplayed(variant: Variant, chs: seq<Channel>, start: nat, duration: nat)
    requires ValidTable(chs) && FitsInWords(variant, chs, start, duration)
    ensures var ev := EncodedSchedule(chs, start, duration);
      var bl := WORD_SIZE * |ev|;
      var window := Schedule(chs, start, DecodedSpan(variant, start, EstimateDuration(chs, bl)));
      && ReadCount(window, bl) == |ev|
      && ev <= window
  {
    var n := EncodedSpan(start, duration);
    var ev := EncodedSchedule(chs, start, duration);
    var bl := WORD_SIZE * |ev|;
    var est := EstimateDuration(chs, bl);
    var window := Schedule(chs, start, DecodedSpan(variant, start, est));
    assert WordsToRead(bl) == |ev|;
    if |ev| > 0 {
      EstimatedWindowHolds(chs, start, bl);
      if n <= est {
        SchedulePrefix(chs, start, n, est);
      } else {
        SchedulePrefix(chs, start, est, n);
        PrefixOfPrefix(window, ev, ev);
      }
    }
  }

  /** The window of the estimated duration holds at least as many samples as the block
      length asks for. */
  lemma EstimatedWindowHolds(chs: seq<Channel>, start: nat, bl: int)
    requires ValidTable(chs) && bl > 0 && RawEstimate(chs, bl) < TWO_32
    ensures WORD_SIZE * |Schedule(chs, start, EstimateDuration(chs, bl))| >= bl
  {
    var est := EstimateDuration(chs, bl);
    EstimateCoversBlock(chs, bl);
    var k := est / BASE_F;
    assert est == k * BASE_F;
    assert k * BytesPerSecond(chs) == WORD_SIZE * (k * SamplesPerSecond(chs));
    WindowHoldsAtLeast(chs, start, k);
  }

  /** Decoding the encoder's file yields, for every table position, a buffer holding that
      position's column of the encoder's stream. */
  lemma RoundTrip(variant: Variant, rule: ValueRule, chs: seq<Channel>, start: nat, duration: nat)
    requires ValidTable(chs) && RuleApplies(rule, chs) && FitsInWords(variant, chs, start, duration)
    ensures var ev := EncodedSchedule(chs, start, duration);
      DecodeSpec(variant, chs, EncodedFile(rule, chs, start, duration))
        == Success(Outputs(variant, chs, EstimateDuration(chs, WORD_SIZE * |ev|), ev, Values(rule, chs, ev)))
  {
    var file := EncodedFile(rule, chs, start, duration);
    var ev := EncodedSchedule(chs, start, duration);
    var bl := WORD_SIZE * |ev|;
    var est := EstimateDuration(chs, bl);
    var window := Schedule(chs, start, DecodedSpan(variant, start, est));
    assert ToUnsigned(file[0]) == start && ToSigned(file[1]) == bl;
    assert DecodeSpec(variant, chs, file) == BlockSpec(variant, chs, file, start, bl, est);
    EncodedBlockReplayed(variant, chs, start, duration);
    assert window[..|ev|] == ev;
    assert file[2..2 + |ev|] == Values(rule, chs, ev) by {
      assert file[2..2 + |ev|] == file[2..];
    }
  }

  /** The round trip for one channel: its buffer carries the channel's id and frequency, is
      sized for the estimated duration, and holds that channel's own values at its own
      emission ticks of the window, in tick order. */
  lemma RoundTripChannel(variant: Variant, rule: ValueRule, chs: seq<Channel>, start: nat, duration: nat, p: nat)
    requires ValidTable(chs) && RuleApplies(rule, chs) && FitsInWords(variant, chs, start, duration)
    requires p < |chs|
    ensures var r := DecodeSpec(variant, chs, EncodedFile(rule, chs, start, duration));
      && r.Success? && |r.value| == |chs|
      && r.value[p].id == chs[p].id
      && r.value[p].frequency == BASE_F / chs[p].divider
      && r.value[p].capacity == Capacity(variant, EstimateDuration(chs, WORD_SIZE * |EncodedSchedule(chs, start, duration)|), chs[p].divider)
      && r.value[p].data == ChannelSamples(rule, chs, p, ChannelTicks(chs[p].divider, start, EncodedSpan(start, duration)))
  {
    RoundTrip(variant, rule, chs, start, duration);
    ColumnOfSchedule(rule, chs, start, EncodedSpan(start, duration), p);
  }

  /** The round trip for all channels at once. */
  lemma RoundTripPerChannel(variant: Variant, rule: ValueRule, chs: seq<Channel>, start: nat, duration: nat)
    requires ValidTable(chs) && RuleApplies(rule, chs) && FitsInWords(variant, chs, start, duration)
    ensures var r := DecodeSpec(variant, chs, EncodedFile(rule, chs, start, duration));
      && r.Success? && |r.value| == |chs|
      && forall p :: 0 <= p < |chs| ==>
           && r.value[p].id == chs[p].id
           && r.value[p].data == ChannelSamples(rule, chs, p, ChannelTicks(chs[p].divider, start, EncodedSpan(start, duration)))
  {
    RoundTrip(variant, rule, chs, start, duration);
    forall p | 0 <= p < |chs|
      ensures Column(EncodedSchedule(chs, start, duration), Values(rule, chs, EncodedSchedule(chs, start, duration)), p)
           == ChannelSamples(rule, chs, p, ChannelTicks(chs[p].divider, start, EncodedSpan(start, duration)))
    {
      ColumnOfSchedule(rule, chs, start, EncodedSpan(start, duration), p);
    }
  }

  /** With the own-divider rule and a recording from tick 0, the buffer of every
      channel reads back as its id in the top byte over the counter 0, 1, 2, ..., one entry
      per emission, `ceil(duration / divider)` in all. */
  lemma OwnDividerCounts(variant: Variant, chs: seq<Channel>, duration: nat, p: nat)
    requires ValidTable(chs) && FitsInWords(variant, chs, 0, duration) && p < |chs|
    ensures var r := DecodeSpec(variant, chs, EncodedFile(OwnDivider, chs, 0, duration));
      && r.Success? && p < |r.value|
      && |r.value[p].data| == (EncodedSpan(0, duration) + chs[p].divider - 1) / chs[p].divider
      && forall k :: 0 <= k < |r.value[p].data| ==> r.value[p].data[k] == chs[p].id * CHANNEL_SHIFT + k
  {
    var d, n := chs[p].divider, EncodedSpan(0, duration);
    var ticks := ChannelTicks(d, 0, n);
    RoundTripChannel(variant, OwnDivider, chs, 0, duration, p);
    ChannelTicksCount(d, 0, n);
    QuotIsDiv(n + d - 1, d);
    QuotIsDiv(d - 1, d);
    ChannelTicksFromZero(d, n);
    forall k | 0 <= k < |ticks|
      ensures ChannelSamples(OwnDivider, chs, p, ticks)[k] == chs[p].id * CHANNEL_SHIFT + k
    {
      ChannelSamplesIndex(OwnDivider, chs, p, ticks, k);
      QuotIsDiv(k * d, d);
      DivModUnique(k * d, d, k, 0);
    }
  }

  /** A recording cut short inside its data is refused as a short read. */
  lemma TruncatedFileIsShortRead(variant: Variant, rule: ValueRule, chs: seq<Channel>, start: nat, duration: nat, j: nat)
    requires ValidTable(chs) && RuleApplies(rule, chs) && FitsInWords(variant, chs, start, duration)
    requires j < |EncodedSchedule(chs, start, duration)|
    ensures DecodeSpec(variant, chs, EncodedFile(rule, chs, start, duration)[..2 + j]) == Failure(ShortRead)
  {
    var file := EncodedFile(rule, chs, start, duration);
    var cut := file[..2 + j];
    var ev := EncodedSchedule(chs, start, duration);
    var bl := WORD_SIZE * |ev|;
    assert cut[0] == file[0] && cut[1] == file[1];
    assert ToUnsigned(cut[0]) == start && ToSigned(cut[1]) == bl;
    EncodedBlockReplayed(variant, chs, start, duration);
  }

  // ---------------------------------------------------------------------------
  // Buffer capacity and the amount read

  /** A prefix holds at most as many samples of a position as the whole stream. */
  lemma CountAtPrefix(a: seq<Event>, b: seq<Event>, p: nat)
    requires a <= b
    ensures CountAt(a, p) <= CountAt(b, p)
  {
    var rest := b[|a|..];
    assert b == a + rest;
    OnlyAppend(a, rest, p);
  }

  /** The buffer of position `p` after reading the first `c` samples of a window no longer
      than the estimate fits its capacity: rounded up always, and rounded down when the
      divider divides the estimate. */
  lemma BufferWithinCapacity(variant: Variant, chs: seq<Channel>, start: nat, est: nat, span: nat,
                             c: nat, vals: seq<int>, p: nat)
    requires ValidTable(chs) && p < |chs| && span <= est
    requires c <= |Schedule(chs, start, span)| && |vals| == c
    requires variant.AsWritten? && c > 0 ==> Divides(chs[p].divider, est)
    ensures var b := Buffer(variant, chs, est, Schedule(chs, start, span)[..c], vals, p);
      |b.data| <= b.capacity
  {
    var d, ev := chs[p].divider, Schedule(chs, start, span);
    ColumnLength(ev[..c], vals, p);
    if c > 0 {
      CountAtPrefix(ev[..c], ev, p);
      CountAtSchedule(chs, start, span, p);
      ChannelTicksBounds(d, start, span);
      QuotIsDiv(span + d - 1, d);
      QuotMonotone(span + d - 1, est + d - 1, d);
      if variant.AsWritten? {
        QuotCeil(est, d);
      }
    } else {
      assert ev[..c] == [];
    }
  }

  /** A divider of the base rate divides every estimate that did not wrap. */
  lemma DividerDividesEstimate(chs: seq<Channel>, bl: int, d: int)
    requires ValidTable(chs) && bl > 0 && RawEstimate(chs, bl) < TWO_32
    requires 1 <= d <= BASE_F && BASE_F % d == 0
    ensures Divides(d, EstimateDuration(chs, bl))
  {
    var est := EstimateDuration(chs, bl);
    EstimateCoversBlock(chs, bl);
    var k, q := est / BASE_F, BASE_F / d;
    assert est == (k * q) * d by {
      assert est == k * BASE_F && BASE_F == q * d;
    }
    DivModUnique(est, d, k * q, 0);
    QuotIsDiv(est, d);
  }

  /** Whatever file it is given, the repaired reader never stores more samples in a buffer
      than the buffer holds; the reader as written keeps to its buffers when every divider
      divides the base rate and the estimate does not wrap. */
  lemma DecodeWithinCapacity(variant: Variant, chs: seq<Channel>, file: seq<int>)
    requires ValidTable(chs)
    requires variant.AsWritten? ==> forall p :: 0 <= p < |chs| ==> BASE_F % chs[p].divider == 0
    requires variant.AsWritten? && |file| >= 2 ==> RawEstimate(chs, ToSigned(file[1])) < TWO_32
    ensures var r := DecodeSpec(variant, chs, file);
      r.Success? ==> |r.value| == |chs| && forall p :: 0 <= p < |chs| ==> |r.value[p].data| <= r.value[p].capacity
  {
    if |file| >= 2 {
      var start, bl := ToUnsigned(file[0]), ToSigned(file[1]);
      var est := EstimateDuration(chs, bl);
      var span := DecodedSpan(variant, start, est);
      var window := Schedule(chs, start, span);
      var c := ReadCount(window, bl);
      if |file| - 2 >= c {
        var vals := file[2..2 + c];
        var outs := Outputs(variant, chs, est, window[..c], vals);
        assert DecodeSpec(variant, chs, file) == Success(outs);
        forall p | 0 <= p < |chs|
          ensures |outs[p].data| <= outs[p].capacity
        {
          if variant.AsWritten? && c > 0 {
            DividerDividesEstimate(chs, bl, chs[p].divider);
          }
          BufferWithinCapacity(variant, chs, start, est, span, c, vals, p);
        }
      }
    }
  }

  /** Samples held by a sequence of buffers. */
  function TotalData(outs: seq<Output>): (n: nat)
  {
    if |outs| == 0 then 0 else TotalData(outs[..|outs| - 1]) + |outs[|outs| - 1].data|
  }

  /** The buffers of the first `P` positions hold the samples of those positions. */
  lemma {:induction false} TotalDataCounts(variant: Variant, chs: seq<Channel>, est: nat, ev: seq<Event>,
                                           vals: seq<int>, P: nat)
    requires ValidTable(chs) && |vals| == |ev| && P <= |chs|
    ensures TotalData(Outputs(variant, chs, est, ev, vals)[..P]) == SumCounts(ev, P)
  {
    if P > 0 {
      var outs := Outputs(variant, chs, est, ev, vals);
      assert outs[..P][..P - 1] == outs[..P - 1];
      TotalDataCounts(variant, chs, est, ev, vals, P - 1);
      ColumnLength(ev, vals, P - 1);
    }
  }

  /** The reader never takes more of the block than its length allows: it stores no more
      samples than the file holds, every word it takes was asked for by a positive
      remaining length, and a length that is a whole number of words is never exceeded. */
  lemma DecodeReadsWithinBlock(variant: Variant, chs: seq<Channel>, file: seq<int>)
    requires ValidTable(chs)
    ensures var r := DecodeSpec(variant, chs, file);
      r.Success? ==>
        && TotalData(r.value) <= |file| - 2
        && TotalData(r.value) <= WordsToRead(ToSigned(file[1]))
        && (TotalData(r.value) > 0 ==> WORD_SIZE * (TotalData(r.value) - 1) < ToSigned(file[1]))
        && (ToSigned(file[1]) >= 0 && ToSigned(file[1]) % WORD_SIZE == 0 ==> WORD_SIZE * TotalData(r.value) <= ToSigned(file[1]))
  {
    if |file| >= 2 {
      var start, bl := ToUnsigned(file[0]), ToSigned(file[1]);
      BlockReadsWithin(variant, chs, file, start, bl, EstimateDuration(chs, bl));
    }
  }

  /** Replaying a block stores no more words than the file holds after its header, no more
      than `ceil(bl / 4)`, and stays within `bl` bytes for a whole-word length. */
  lemma BlockReadsWithin(variant: Variant, chs: seq<Channel>, file: seq<int>, start: nat, bl: int, est: nat)
    requires ValidTable(chs) && |file| >= 2 && start < TWO_32 && est < TWO_32
    ensures var r := BlockSpec(variant, chs, file, start, bl, est);
      r.Success? ==>
        && TotalData(r.value) <= |file| - 2
        && TotalData(r.value) <= WordsToRead(bl)
        && (TotalData(r.value) > 0 ==> WORD_SIZE * (TotalData(r.value) - 1) < bl)
        && (bl >= 0 && bl % WORD_SIZE == 0 ==> WORD_SIZE * TotalData(r.value) <= bl)
  {
    var window := Schedule(chs, start, DecodedSpan(variant, start, est));
    var c := ReadCount(window, bl);
    if |file| - 2 >= c {
      SchedulePositions(chs, start, DecodedSpan(variant, start, est));
      BuffersHoldPrefix(variant, chs, est, window, c, file[2..2 + c]);
      if bl % WORD_SIZE == 0 && c > 0 {
        DivModUnique(bl, WORD_SIZE, bl / WORD_SIZE, 0);
      }
    }
  }

  /** Buffers filled from the first `c` samples of a stream hold `c` samples together. */
  lemma BuffersHoldPrefix(variant: Variant, chs: seq<Channel>, est: nat, window: seq<Event>, c: nat, vals: seq<int>)
    requires ValidTable(chs) && PositionsBelow(window, |chs|) && c <= |window| && |vals| == c
    ensures TotalData(Outputs(variant, chs, est, window[..c], vals)) == c
  {
    var outs := Outputs(variant, chs, est, window[..c], vals);
    TotalDataCounts(variant, chs, est, window[..c], vals, |chs|);
    assert outs[..|chs|] == outs;
    assert forall k :: 0 <= k < c ==> window[..c][k] == window[k];
    SumCountsTotal(window[..c], |chs|);
  }
}

=== FILE: samples.dfy ===
/** Sample values and the per-channel view of a stream (logger.cpp:64-67, 76, 98-99).

    The recorder computes a sample as `(id << 24) + tick / Channels[id].divider`: the
    divider is looked up with the channel's id as an index into the sorted table, not at
    the channel's own position. `ValueRule` keeps both readings apart: `LookupById` is the
    code as written, `OwnDivider` is the intended value, computed with the channel's own divider. */
module Samples {
  import opened Channels
  import opened Scheduling
  import opened Arith
  import opened Seqs

  /** `1 << 24`: the id occupies the top byte of a sample. */
  const CHANNEL_SHIFT: int := 0x100_0000

  /** Which divider a sample value is computed with. */
  datatype ValueRule = LookupById | OwnDivider

  /** Tables a rule can compute values for. Looking a divider up by id needs every id to be
      a position of the table; the recorder does not check this, and an id outside the
      table reads an unused (zero) divider or past the table. */
  ghost predicate RuleApplies(rule: ValueRule, chs: seq<Channel>)
  {
    && PositiveDividers(chs)
    && (rule.LookupById? ==> forall p :: 0 <= p < |chs| ==> 0 <= chs[p].id < |chs|)
  }

  /** The value written for one scheduled sample: the channel's id in the top byte, and
      below it the number of whole periods of the divider the rule picks that have
      elapsed by the sample's tick. */
  function SampleValue(rule: ValueRule, chs: seq<Channel>, e: Event): (v: int)
    requires RuleApplies(rule, chs) && e.pos < |chs|
    ensures var c := chs[e.pos];
      var d := if rule.LookupById? then chs[c.id].divider else c.divider;
      var index := v - c.id * CHANNEL_SHIFT;
      0 <= index && index * d <= e.tick < index * d + d
  {
    var c := chs[e.pos];
    var d := if rule.LookupById? then chs[c.id].divider else c.divider;
    QuotIsDiv(e.tick, d);
    DivBounds(e.tick, d);
    c.id * CHANNEL_SHIFT + Quot(e.tick, d)
  }

  /** With the own-divider rule, a value whose id fits in 8 bits and whose sample index fits
      in 24 bits unpacks back into the channel id and `tick / divider`. */
  lemma SampleValueUnpacks(chs: seq<Channel>, e: Event)
    requires RuleApplies(OwnDivider, chs) && e.pos < |chs|
    requires 0 <= chs[e.pos].id < 256 && e.tick / chs[e.pos].divider < CHANNEL_SHIFT
    ensures SampleValue(OwnDivider, chs, e) / CHANNEL_SHIFT == chs[e.pos].id
    ensures SampleValue(OwnDivider, chs, e) % CHANNEL_SHIFT == e.tick / chs[e.pos].divider
  {
    QuotIsDiv(e.tick, chs[e.pos].divider);
    DivModUnique(SampleValue(OwnDivider, chs, e), CHANNEL_SHIFT, chs[e.pos].id, e.tick / chs[e.pos].divider);
  }

  /** The values of a sequence of scheduled samples, in stream order. */
  function Values(rule: ValueRule, chs: seq<Channel>, ev: seq<Event>): (r: seq<int>)
    requires RuleApplies(rule, chs) && PositionsBelow(ev, |chs|)
    ensures |r| == |ev|
  {
    if |ev| == 0 then []
    else
      assert PositionsBelow(ev[..|ev| - 1], |chs|);
      Values(rule, chs, ev[..|ev| - 1]) + [SampleValue(rule, chs, ev[|ev| - 1])]
  }

  /** Lengthening a prefix of the stream by one sample appends that sample's value. */
  lemma ValuesPrefix(rule: ValueRule, chs: seq<Channel>, ev: seq<Event>, k: nat)
    requires RuleApplies(rule, chs) && PositionsBelow(ev, |chs|) && k < |ev|
    ensures PositionsBelow(ev[..k], |chs|) && PositionsBelow(ev[..k + 1], |chs|)
    ensures Values(rule, chs, ev[..k + 1]) == Values(rule, chs, ev[..k]) + [SampleValue(rule, chs, ev[k])]
  {
    assert ev[..k + 1][..k] == ev[..k];
  }

  /** One more sample appends its value. */
  lemma ValuesSnoc(rule: ValueRule, chs: seq<Channel>, ev: seq<Event>, e: Event)
    requires RuleApplies(rule, chs) && PositionsBelow(ev, |chs|) && e.pos < |chs|
    ensures PositionsBelow(ev + [e], |chs|)
    ensures Values(rule, chs, ev + [e]) == Values(rule, chs, ev) + [SampleValue(rule, chs, e)]
  {
    assert (ev + [e])[..|ev|] == ev;
  }

  /** Values of a concatenation are the concatenation of the values. */
  lemma {:induction false} ValuesAppend(rule: ValueRule, chs: seq<Channel>, a: seq<Event>, b: seq<Event>)
    requires RuleApplies(rule, chs) && PositionsBelow(a, |chs|) && PositionsBelow(b, |chs|)
    ensures PositionsBelow(a + b, |chs|)
    ensures Values(rule, chs, a + b) == Values(rule, chs, a) + Values(rule, chs, b)
  {
    if |b| == 0 {
      assert a + b == a;
    } else {
      var init, e := b[..|b| - 1], b[|b| - 1];
      assert b == init + [e];
      assert PositionsBelow(init, |chs|);
      ValuesAppend(rule, chs, a, init);
      ValuesAppendStep(rule, chs, a, init, e);
    }
  }

  lemma ValuesAppendStep(rule: ValueRule, chs: seq<Channel>, a: seq<Event>, b: seq<Event>, e: Event)
    requires RuleApplies(rule, chs) && PositionsBelow(a, |chs|) && PositionsBelow(b, |chs|) && e.pos < |chs|
    requires PositionsBelow(a + b, |chs|)
    requires Values(rule, chs, a + b) == Values(rule, chs, a) + Values(rule, chs, b)
    ensures PositionsBelow(a + (b + [e]), |chs|)
    ensures Values(rule, chs, a + (b + [e])) == Values(rule, chs, a) + Values(rule, chs, b + [e])
  {
    AppendAssoc(a, b, [e]);
    ValuesSnoc(rule, chs, a + b, e);
    ValuesSnoc(rule, chs, b, e);
    AppendAssoc(Values(rule, chs, a), Values(rule, chs, b), [SampleValue(rule, chs, e)]);
  }

  /** The values channel `p` emits at the given ticks. */
  function ChannelSamples(rule: ValueRule, chs: seq<Channel>, p: nat, ticks: seq<nat>): (r: seq<int>)
    requires RuleApplies(rule, chs) && p < |chs|
    ensures |r| == |ticks|
  {
    if |ticks| == 0 then []
    else ChannelSamples(rule, chs, p, ticks[..|ticks| - 1]) + [SampleValue(rule, chs, Event(p, ticks[|ticks| - 1]))]
  }

  /** The `k`-th value channel `p` emits is its value at the `k`-th tick. */
  lemma {:induction false} ChannelSamplesIndex(rule: ValueRule, chs: seq<Channel>, p: nat, ticks: seq<nat>, k: nat)
    requires RuleApplies(rule, chs) && p < |chs| && k < |ticks|
    ensures ChannelSamples(rule, chs, p, ticks)[k] == SampleValue(rule, chs, Event(p, ticks[k]))
  {
    if k < |ticks| - 1 {
      ChannelSamplesIndex(rule, chs, p, ticks[..|ticks| - 1], k);
    }
  }

  /** The values of channel `p`'s samples at some ticks are what it emits at those ticks. */
  lemma {:induction false} ValuesOfEventsAt(rule: ValueRule, chs: seq<Channel>, p: nat, ticks: seq<nat>)
    requires RuleApplies(rule, chs) && p < |chs|
    ensures PositionsBelow(EventsAt(p, ticks), |chs|)
    ensures Values(rule, chs, EventsAt(p, ticks)) == ChannelSamples(rule, chs, p, ticks)
  {
    if |ticks| > 0 {
      var init, t := ticks[..|ticks| - 1], ticks[|ticks| - 1];
      ValuesOfEventsAt(rule, chs, p, init);
      assert EventsAt(p, ticks) == EventsAt(p, init) + [Event(p, t)];
      ValuesSnoc(rule, chs, EventsAt(p, init), Event(p, t));
    }
  }

  // ---------------------------------------------------------------------------
  // Columns: the values one table position receives

  /** The values among `vals` whose slot in `ev` belongs to position `p`, in stream order:
      what the decoder appends to the buffer of `p`. */
  function Column(ev: seq<Event>, vals: seq<int>, p: nat): (col: seq<int>)
    requires |vals| == |ev|
  {
    if |ev| == 0 then []
    else if ev[|ev| - 1].pos == p then Column(ev[..|ev| - 1], vals[..|vals| - 1], p) + [vals[|vals| - 1]]
    else Column(ev[..|ev| - 1], vals[..|vals| - 1], p)
  }

  lemma ColumnSnoc(ev: seq<Event>, vals: seq<int>, e: Event, v: int, p: nat)
    requires |vals| == |ev|
    ensures Column(ev + [e], vals + [v], p) == if e.pos == p then Column(ev, vals, p) + [v] else Column(ev, vals, p)
  {
    assert (ev + [e])[..|ev|] == ev;
    assert (vals + [v])[..|vals|] == vals;
  }

  /** Lengthening a prefix of the stream by one sample lengthens channel `p`'s column by
      that sample's value exactly when the sample is at `p`. */
  lemma ColumnPrefix(ev: seq<Event>, vals: seq<int>, k: nat, p: nat)
    requires |vals| == |ev| && k < |ev|
    ensures Column(ev[..k + 1], vals[..k + 1], p) == Column(ev[..k], vals[..k], p) + if ev[k].pos == p then [vals[k]] else []
  {
    assert ev[..k + 1][..k] == ev[..k] && vals[..k + 1][..k] == vals[..k];
  }

  /** A column holds one value per sample of its position, whatever the values are. */
  lemma {:induction false} ColumnLength(ev: seq<Event>, vals: seq<int>, p: nat)
    requires |vals| == |ev|
    ensures |Column(ev, vals, p)| == CountAt(ev, p)
  {
    if |ev| > 0 {
      ColumnLength(ev[..|ev| - 1], vals[..|vals| - 1], p);
    }
  }

  /** When the values are computed from the events, a position's column is the values
      of that position's events. */
  lemma {:induction false} ColumnOfValues(rule: ValueRule, chs: seq<Channel>, ev: seq<Event>, p: nat)
    requires RuleApplies(rule, chs) && PositionsBelow(ev, |chs|)
    ensures PositionsBelow(Only(ev, p), |chs|)
    ensures Column(ev, Values(rule, chs, ev), p) == Values(rule, chs, Only(ev, p))
  {
    if |ev| > 0 {
      var init, e := ev[..|ev| - 1], ev[|ev| - 1];
      assert ev == init + [e];
      assert PositionsBelow(init, |chs|) by {
        forall k | 0 <= k < |init| ensures init[k].pos < |chs| { assert init[k] == ev[k]; }
      }
      ColumnOfValues(rule, chs, init, p);
      ColumnOfValuesStep(rule, chs, init, e, p);
    }
  }

  /** The inductive step of `ColumnOfValues`: one more event keeps the column equal to the
      values of the position's events. */
  lemma ColumnOfValuesStep(rule: ValueRule, chs: seq<Channel>, init: seq<Event>, e: Event, p: nat)
    requires RuleApplies(rule, chs) && PositionsBelow(init, |chs|) && e.pos < |chs|
    requires PositionsBelow(Only(init, p), |chs|)
    requires Column(init, Values(rule, chs, init), p) == Values(rule, chs, Only(init, p))
    ensures PositionsBelow(init + [e], |chs|) && PositionsBelow(Only(init + [e], p), |chs|)
    ensures Column(init + [e], Values(rule, chs, init + [e]), p) == Values(rule, chs, Only(init + [e], p))
  {
    var oi := Only(init, p);
    ValuesSnoc(rule, chs, init, e);
    ColumnSnoc(init, Values(rule, chs, init), e, SampleValue(rule, chs, e), p);
    OnlySnoc(init, e, p);
    if e.pos == p {
      ValuesSnoc(rule, chs, oi, e);
    }
  }

  /** What the encoder emits for one channel: its column of the schedule is its own value
      at each of its emission ticks, in tick order. */
  lemma ColumnOfSchedule(rule: ValueRule, chs: seq<Channel>, start: nat, n: nat, p: nat)
    requires RuleApplies(rule, chs) && p < |chs|
    ensures PositionsBelow(Schedule(chs, start, n), |chs|)
    ensures Column(Schedule(chs, start, n), Values(rule, chs, Schedule(chs, start, n)), p)
         == ChannelSamples(rule, chs, p, ChannelTicks(chs[p].divider, start, n))
  {
    var ev := Schedule(chs, start, n);
    SchedulePositions(chs, start, n);
    ColumnOfValues(rule, chs, ev, p);
    OnlyOfSchedule(chs, start, n, p);
    ValuesOfEventsAt(rule, chs, p, ChannelTicks(chs[p].divider, start, n));
  }

  /** Counting from tick 0, the `k`-th emission of a channel falls on tick `k * d`. */
  lemma {:induction false} ChannelTicksFromZero(d: int, n: nat)
    requires d > 0
    ensures forall k :: 0 <= k < |ChannelTicks(d, 0, n)| ==> ChannelTicks(d, 0, n)[k] == k * d
  {
    if n > 0 {
      var t := n - 1;
      ChannelTicksFromZero(d, t);
      if Divides(d, t) {
        ChannelTicksCount(d, 0, t);
        QuotCeil(t, d);
        QuotRem(t, d);
        assert Quot(d - 1, d) == 0;
        assert |ChannelTicks(d, 0, t)| * d == t;
      }
    }
  }

  /** The as-written value reads the wrong divider. In the recorder's own usage example
      (`-c0,1000 -c1,200 -c2,500`) the sorted table is ids 0, 2, 1 with dividers 1, 2, 5; the
      second sample of channel 1 (tick 5) is computed with the divider 2 stored at position 1
      and reads 2 as its sample index, where the intended value reads 1. */
  lemma LookupByIdMisreadsDivider()
    ensures
      var chs := [Channel(1, 0), Channel(2, 2), Channel(5, 1)];
      && RuleApplies(LookupById, chs) && RuleApplies(OwnDivider, chs)
      && SampleValue(LookupById, chs, Event(2, 5)) == CHANNEL_SHIFT + 2
      && SampleValue(OwnDivider, chs, Event(2, 5)) == CHANNEL_SHIFT + 1
  {
  }

  /** The two rules agree whenever every channel's id is its own table position, as in a
      table registered with ids 0, 1, 2, ... in divider order. */
  lemma RulesAgreeWhenIdsArePositions(chs: seq<Channel>, e: Event)
    requires PositiveDividers(chs) && e.pos < |chs|
    requires forall p :: 0 <= p < |chs| ==> chs[p].id == p
    ensures RuleApplies(LookupById, chs)
    ensures SampleValue(LookupById, chs, e) == SampleValue(OwnDivider, chs, e)
  {
  }
}

=== FILE: scenarios.dfy ===
/** Concrete recordings: a small one worked through word by word, and the two inputs on
    which the reader as written goes wrong while the repaired reader gets the data back. */
module Scenarios {
  import opened Outcomes
  import opened Channels
  import opened Words
  import opened Config
  import opened Arith
  import opened Scheduling
  import opened Samples
  import opened Encoder
  import opened Decoder
  import opened Readback

  /** A 1000 Hz channel (id 0) and a 200 Hz channel (id 1), in table order. */
  const SMALL_TABLE: seq<Channel> := [Channel(1, 0), Channel(5, 1)]

  /** Their schedule over ticks 0, 1, 2: both emit at tick 0, then the fast channel alone. */
  const SMALL_STREAM: seq<Event> := [Event(0, 0), Event(1, 0), Event(0, 1), Event(0, 2)]

  /** The file recorded from tick 0 for three ticks: four samples, a 16-byte block. */
  const SMALL_FILE: seq<int> := [0, 16, 0, CHANNEL_SHIFT, 1, 2]

  /** The schedule of the small recording, tick by tick: both channels at tick 0, then the
      fast channel alone at ticks 1 and 2. The window length is the parameter `n`, equal to 3. */
  lemma SmallSchedule(n: nat)
    requires n == 3
    ensures ValidTable(SMALL_TABLE) && Sorted(SMALL_TABLE)
    ensures Schedule(SMALL_TABLE, 0, n) == SMALL_STREAM
  {
    var chs := SMALL_TABLE;
    assert Divides(1, 0) && Divides(5, 0) && Divides(1, 1) && Divides(1, 2) && !Divides(5, 1) && !Divides(5, 2);
    assert TickEvents(chs, 0, 2) == [Event(0, 0), Event(1, 0)];
    assert TickEvents(chs, 1, 2) == [Event(0, 1)];
    assert TickEvents(chs, 2, 2) == [Event(0, 2)];
    assert Schedule(chs, 0, n - 2) == [Event(0, 0), Event(1, 0)];
    assert Schedule(chs, 0, n - 1) == [Event(0, 0), Event(1, 0), Event(0, 1)];
  }

  /** Each sample of the small recording, valued with its channel's own divider. */
  lemma SmallSampleValues()
    ensures RuleApplies(OwnDivider, SMALL_TABLE)
    ensures SampleValue(OwnDivider, SMALL_TABLE, Event(0, 0)) == 0
    ensures SampleValue(OwnDivider, SMALL_TABLE, Event(1, 0)) == CHANNEL_SHIFT
    ensures SampleValue(OwnDivider, SMALL_TABLE, Event(0, 1)) == 1
    ensures SampleValue(OwnDivider, SMALL_TABLE, Event(0, 2)) == 2
  {
    assert Quot(1, 1) == 1 && Quot(2, 1) == 2 && Quot(0, 1) == 0 && Quot(0, 5) == 0;
  }

  /** The values of the small recording's samples under the own-divider rule. */
  lemma SmallValues()
    ensures RuleApplies(OwnDivider, SMALL_TABLE) && PositionsBelow(SMALL_STREAM, |SMALL_TABLE|)
    ensures Values(OwnDivider, SMALL_TABLE, SMALL_STREAM) == SMALL_FILE[2..]
  {
    var chs, ev := SMALL_TABLE, SMALL_STREAM;
    SmallSampleValues();
    assert PositionsBelow(ev, |chs|);
    assert ev[..0] == [];
    ValuesPrefix(OwnDivider, chs, ev, 0);
    ValuesPrefix(OwnDivider, chs, ev, 1);
    ValuesPrefix(OwnDivider, chs, ev, 2);
    ValuesPrefix(OwnDivider, chs, ev, 3);
    assert ev[..4] == ev;
  }

  /** Recording the two channels over ticks 0, 1, 2 writes the start time, the 16-byte
      block length, and the four samples with both channels at tick 0 in table order. */
  lemma SmallRecording(n: nat)
    requires n == 3
    ensures ValidTable(SMALL_TABLE) && Sorted(SMALL_TABLE) && RuleApplies(OwnDivider, SMALL_TABLE)
    ensures |EncodedSchedule(SMALL_TABLE, 0, n)| == 4
    ensures EncodedFile(OwnDivider, SMALL_TABLE, 0, n) == SMALL_FILE
  {
    SmallSchedule(n);
    assert EncodedSpan(0, n) == n;
    SmallValues();
  }

  /** The small recording's 32-bit quantities are in range; its estimate is one second. */
  lemma SmallFits(variant: Variant, n: nat)
    requires n == 3
    ensures ValidTable(SMALL_TABLE)
    ensures EstimateDuration(SMALL_TABLE, 16) == 1000
    ensures FitsInWords(variant, SMALL_TABLE, 0, n)
  {
    SmallRecording(n);
    assert SamplesPerSecond(SMALL_TABLE) == 1200;
    assert RawEstimate(SMALL_TABLE, 16) == 1000;
  }

  /** Reading the small recording back fills the fast channel's buffer with the counter
      0, 1, 2 and the slow channel's with the single value `1 << 24` (id 1, index 0), each
      in a buffer sized for the one-second estimate. */
  lemma SmallRecordingReadBack(variant: Variant)
    ensures ValidTable(SMALL_TABLE)
    ensures var r := DecodeSpec(variant, SMALL_TABLE, SMALL_FILE);
      && r.Success? && |r.value| == 2
      && r.value[0] == Output(0, 1000, 1000, [0, 1, 2])
      && r.value[1] == Output(1, 200, 200, [CHANNEL_SHIFT])
  {
    var chs := SMALL_TABLE;
    var n: nat, est: nat := 3, 1000;
    SmallRecording(n);
    SmallFits(variant, n);
    SmallSchedule(n);
    RoundTrip(variant, OwnDivider, chs, 0, n);
    assert DecodeSpec(variant, chs, SMALL_FILE) == Success(Outputs(variant, chs, est, SMALL_STREAM, SMALL_FILE[2..]));
    SmallBuffers(variant, est);
  }

  /** The buffers holding the small recording's stream, sized for `est` ticks. */
  lemma SmallBuffers(variant: Variant, est: nat)
    requires est == 1000
    ensures ValidTable(SMALL_TABLE)
    ensures var outs := Outputs(variant, SMALL_TABLE, est, SMALL_STREAM, SMALL_FILE[2..]);
      && outs[0] == Output(0, 1000, 1000, [0, 1, 2])
      && outs[1] == Output(1, 200, 200, [CHANNEL_SHIFT])
  {
    SmallColumns();
    CapacityBounds(variant, est, 1);
    CapacityBounds(variant, est, 5);
  }

  /** The columns of the small recording's stream. */
  lemma SmallColumns()
    ensures Column(SMALL_STREAM, SMALL_FILE[2..], 0) == [0, 1, 2]
    ensures Column(SMALL_STREAM, SMALL_FILE[2..], 1) == [CHANNEL_SHIFT]
  {
    SmallColumn(0);
    SmallColumn(1);
  }

  /** Channel `p`'s column, built one sample at a time. */
  lemma SmallColumn(p: nat)
    requires p < 2
    ensures Column(SMALL_STREAM, SMALL_FILE[2..], p) == if p == 0 then [0, 1, 2] else [CHANNEL_SHIFT]
  {
    var ev, vals := SMALL_STREAM, SMALL_FILE[2..];
    assert ev[..0] == [] && vals[..0] == [];
    ColumnPrefix(ev, vals, 0, p);
    ColumnPrefix(ev, vals, 1, p);
    ColumnPrefix(ev, vals, 2, p);
    ColumnPrefix(ev, vals, 3, p);
    assert ev[..4] == ev && vals[..4] == vals;
  }

  // ---------------------------------------------------------------------------
  // Buffers sized by rounding down

  /** A 100 Hz channel (divider 10) and a 28 Hz channel (divider 35, as `1000 / 28` truncates). */
  const OVERFLOW_TABLE: seq<Channel> := [Channel(10, 0), Channel(35, 1)]

  /** The recording length of the overflow scenario, ticks 0 .. 980. The lemmas below take it
      as a parameter `n` equal to this value. */
  const OVERFLOW_DURATION: nat := 981

  /** The overflow table is a valid table in comparator order. */
  lemma OverflowTableValid()
    ensures ValidTable(OVERFLOW_TABLE) && Sorted(OVERFLOW_TABLE)
  {
  }

  /** Counting from tick 0, a window of `n` ticks holds `ceil(n / d)` emissions. */
  lemma TicksFromZeroCount(d: int, n: nat)
    requires d > 0
    ensures |ChannelTicks(d, 0, n)| == (n + d - 1) / d
  {
    ChannelTicksCount(d, 0, n);
    QuotIsDiv(n + d - 1, d);
    QuotIsDiv(d - 1, d);
  }

  /** The recording emits 99 samples of the fast channel and 29 of the slow one. */
  lemma OverflowCounts(n: nat)
    requires n == OVERFLOW_DURATION
    ensures ValidTable(OVERFLOW_TABLE) && Sorted(OVERFLOW_TABLE)
    ensures |ChannelTicks(10, 0, n)| == 99 && |ChannelTicks(35, 0, n)| == 29
    ensures EncodedSpan(0, n) == n
    ensures |EncodedSchedule(OVERFLOW_TABLE, 0, n)| == 128
  {
    var chs := OVERFLOW_TABLE;
    OverflowTableValid();
    TicksFromZeroCount(10, n);
    TicksFromZeroCount(35, n);
    ScheduleSize(chs, 0, n);
    assert chs[..1] == [Channel(10, 0)] && chs[..1][..0] == [];
    assert TotalEmissions(chs, 0, n) == |ChannelTicks(10, 0, n)| + |ChannelTicks(35, 0, n)|;
  }

  /** Its block is 512 bytes, exactly one second's worth, so the estimate is 1000 ticks. */
  lemma OverflowEstimate(n: nat)
    requires n == OVERFLOW_DURATION
    ensures ValidTable(OVERFLOW_TABLE)
    ensures EstimateDuration(OVERFLOW_TABLE, 512) == 1000
    ensures FitsInWords(AsWritten, OVERFLOW_TABLE, 0, n) && FitsInWords(Repaired, OVERFLOW_TABLE, 0, n)
  {
    OverflowCounts(n);
    OverflowRate();
  }

  /** One second of the table counts 100 + 28 samples, 512 bytes, so a 512-byte block is
      estimated at exactly one second. */
  lemma OverflowRate()
    ensures ValidTable(OVERFLOW_TABLE)
    ensures SamplesPerSecond(OVERFLOW_TABLE) == 128 && BytesPerSecond(OVERFLOW_TABLE) == 512
    ensures RawEstimate(OVERFLOW_TABLE, 512) == 1000
  {
    OverflowTableValid();
    var chs := OVERFLOW_TABLE;
    assert chs[..1] == [Channel(10, 0)] && chs[..1][..0] == [];
    assert SamplesPerSecond(chs) == 100 + 28;
  }

  /** The slow channel's buffer after the round trip holds its 29 samples, in a buffer
      sized for the estimated `est` ticks. */
  lemma OverflowSlowBuffer(variant: Variant, n: nat, est: nat)
    requires n == OVERFLOW_DURATION && est == 1000
    ensures ValidTable(OVERFLOW_TABLE) && RuleApplies(OwnDivider, OVERFLOW_TABLE)
    ensures var r := DecodeSpec(variant, OVERFLOW_TABLE, EncodedFile(OwnDivider, OVERFLOW_TABLE, 0, n));
      && r.Success? && |r.value| == 2
      && r.value[1].capacity == Capacity(variant, est, 35)
      && |r.value[1].data| == 29
  {
    var chs := OVERFLOW_TABLE;
    OverflowEstimate(n);
    OverflowCounts(n);
    RoundTripChannel(variant, OwnDivider, chs, 0, n, 1);
    assert chs[1].divider == 35;
  }

  /** The reader as written allocates `1000 / 35 = 28` slots for the slow channel and then
      stores its 29 samples in them, one past the end of the buffer. */
  lemma SourceCapacityOverflows(n: nat)
    requires n == OVERFLOW_DURATION
    ensures ValidTable(OVERFLOW_TABLE) && RuleApplies(OwnDivider, OVERFLOW_TABLE)
    ensures var r := DecodeSpec(AsWritten, OVERFLOW_TABLE, EncodedFile(OwnDivider, OVERFLOW_TABLE, 0, n));
      && r.Success? && |r.value| == 2
      && r.value[1].capacity == 28
      && |r.value[1].data| == 29
  {
    var est: nat := 1000;
    OverflowSlowBuffer(AsWritten, n, est);
    CapacityBounds(AsWritten, est, 35);
  }

  /** Rounding the buffer size up gives the slow channel the 29 slots it needs. */
  lemma RepairedCapacityHolds(n: nat)
    requires n == OVERFLOW_DURATION
    ensures ValidTable(OVERFLOW_TABLE) && RuleApplies(OwnDivider, OVERFLOW_TABLE)
    ensures var r := DecodeSpec(Repaired, OVERFLOW_TABLE, EncodedFile(OwnDivider, OVERFLOW_TABLE, 0, n));
      && r.Success? && |r.value| == 2
      && r.value[1].capacity == 29
      && |r.value[1].data| == 29
  {
    var est: nat := 1000;
    OverflowSlowBuffer(Repaired, n, est);
    CapacityBounds(Repaired, est, 35);
  }

  // ---------------------------------------------------------------------------
  // A window end that wraps around

  /** Ten ticks before the 32-bit tick counter wraps. */
  const WRAP_START: int := TWO_32 - 10

  /** A single 1000 Hz channel recorded for five ticks from `WRAP_START`: five samples,
      a 20-byte block, and a one-second estimate. */
  lemma WrapRecording()
    ensures ValidTable([Channel(1, 0)])
    ensures EncodedSpan(WRAP_START, 5) == 5
    ensures |EncodedSchedule([Channel(1, 0)], WRAP_START, 5)| == 5
    ensures EstimateDuration([Channel(1, 0)], 20) == 1000
    ensures FitsInWords(Repaired, [Channel(1, 0)], WRAP_START, 5)
  {
    var chs := [Channel(1, 0)];
    ChannelTicksWholePeriods(1, WRAP_START, 5);
    ScheduleSize(chs, WRAP_START, 5);
    assert chs[..0] == [];
    assert SamplesPerSecond(chs) == 1000;
    assert RawEstimate(chs, 20) == 1000;
  }

  /** The reader as written forms the window end `start + 1000` in 32 bits; it wraps to 990,
      below the start, so no tick is visited and the five samples in the file are not read. */
  lemma WrappedEndDropsBlock()
    ensures var file := EncodedFile(OwnDivider, [Channel(1, 0)], WRAP_START, 5);
      var r := DecodeSpec(AsWritten, [Channel(1, 0)], file);
      && |file| == 7
      && r.Success? && |r.value| == 1 && r.value[0].data == []
  {
    var chs := [Channel(1, 0)];
    var file := EncodedFile(OwnDivider, chs, WRAP_START, 5);
    WrapRecording();
    assert ToUnsigned(file[0]) == WRAP_START && ToSigned(file[1]) == 20;
    assert DecodedSpan(AsWritten, WRAP_START, 1000) == 0;
    assert DecodeSpec(AsWritten, chs, file) == BlockSpec(AsWritten, chs, file, WRAP_START, 20, 1000);
    var window: seq<Event> := Schedule(chs, WRAP_START, 0);
    assert window == [] && ReadCount(window, 20) == 0;
    assert window[..0] == [] && file[2..2] == [];
    assert Outputs(AsWritten, chs, 1000, [], [])[0].data == Column([], [], 0) == [];
    assert DecodeSpec(AsWritten, chs, file) == Success(Outputs(AsWritten, chs, 1000, [], []));
  }

  /** The repaired reader visits the estimated number of ticks without forming the end, and
      gets all five samples back. */
  lemma RepairedEndReadsBlock()
    ensures var file := EncodedFile(OwnDivider, [Channel(1, 0)], WRAP_START, 5);
      var r := DecodeSpec(Repaired, [Channel(1, 0)], file);
      && r.Success? && |r.value| == 1 && |r.value[0].data| == 5
  {
    WrapRecording();
    RoundTripPerChannel(Repaired, OwnDivider, [Channel(1, 0)], WRAP_START, 5);
    ChannelTicksWholePeriods(1, WRAP_START, 5);
  }
}

=== FILE: schedule.dfy ===
/** The emission schedule both coders derive on their own (logger.cpp:69-104): at every tick,
    every channel whose divider divides the tick emits one sample, in table order. */
module Scheduling {
  import opened Channels
  import opened Arith
  import opened Seqs

  /** Tables a schedule can be computed for: no divider is zero. */
  ghost predicate PositiveDividers(chs: seq<Channel>)
  {
    forall p :: 0 <= p < |chs| ==> chs[p].divider > 0
  }

  /** One sample slot of the stream: the channel at table position `pos` emits at `tick`. */
  datatype Event = Event(pos: nat, tick: nat)

  /** The coders' test whether a channel with divider `d` emits at `tick`: `tick % d == 0`. */
  method IsDue(tick: nat, d: int) returns (due: bool)
    requires d > 0
    ensures due <==> Divides(d, tick)
  {
    QuotIsDiv(tick, d);
    due := tick % d == 0;
  }

  /** Stream order: earlier ticks first, and within one tick the table order. */
  predicate EventBefore(a: Event, b: Event)
  {
    a.tick < b.tick || (a.tick == b.tick && a.pos < b.pos)
  }

  // ---------------------------------------------------------------------------
  // One channel on its own

  /** The ticks in `[lo, lo + n)` at which a channel with divider `d` emits, ascending. */
  function ChannelTicks(d: int, lo: nat, n: nat): (ticks: seq<nat>)
    requires d > 0
  {
    if n == 0 then []
    else if Divides(d, lo + n - 1) then ChannelTicks(d, lo, n - 1) + [lo + n - 1]
    else ChannelTicks(d, lo, n - 1)
  }

  /** One more tick extends the list by that tick exactly when the divider divides it. */
  lemma ChannelTicksStep(d: int, lo: nat, n: nat)
    requires d > 0 && n > 0
    ensures ChannelTicks(d, lo, n)
         == if Divides(d, lo + n - 1) then ChannelTicks(d, lo, n - 1) + [lo + n - 1] else ChannelTicks(d, lo, n - 1)
  {
  }

  /** Only ticks of the window that the divider divides are listed, in ascending order. */
  lemma {:induction false} ChannelTicksSound(d: int, lo: nat, n: nat)
    requires d > 0
    ensures forall k :: 0 <= k < |ChannelTicks(d, lo, n)| ==>
      lo <= ChannelTicks(d, lo, n)[k] < lo + n && Divides(d, ChannelTicks(d, lo, n)[k])
    ensures forall k, l :: 0 <= k < l < |ChannelTicks(d, lo, n)| ==>
      ChannelTicks(d, lo, n)[k] < ChannelTicks(d, lo, n)[l]
  {
    if n > 0 {
      ChannelTicksSound(d, lo, n - 1);
    }
  }

  /** Every tick of the window that the divider divides is listed. */
  lemma {:induction false} ChannelTicksComplete(d: int, lo: nat, n: nat, t: nat)
    requires d > 0
    ensures t in ChannelTicks(d, lo, n) <==> lo <= t < lo + n && Divides(d, t)
  {
    if n > 0 {
      ChannelTicksComplete(d, lo, n - 1, t);
    }
  }

  /** Closed form for the number of multiples of `d` in `[lo, lo + n)`: the multiples below
      `lo + n` minus those below `lo`, each counted as a rounded-up quotient. */
  lemma {:induction false} ChannelTicksCount(d: int, lo: nat, n: nat)
    requires d > 0
    ensures |ChannelTicks(d, lo, n)| == Quot(lo + n + d - 1, d) - Quot(lo + d - 1, d)
  {
    if n > 0 {
      var x := lo + n - 1;
      ChannelTicksCount(d, lo, n - 1);
      QuotCeil(x, d);
      assert Quot(x + d, d) == Quot(x, d) + 1;
    }
  }

  /** The count only depends on the window length and on where `lo` falls in the period. */
  lemma ChannelTicksShifted(d: int, lo: nat, n: nat)
    requires d > 0
    ensures |ChannelTicks(d, lo, n)| == Quot(Rem(lo + d - 1, d) + n, d)
  {
    ChannelTicksCount(d, lo, n);
    QuotShift(lo + d - 1, n, d);
  }

  /** Any window of `n` ticks holds between `n / d` and `ceil(n / d)` emissions of the channel. */
  lemma ChannelTicksBounds(d: int, lo: nat, n: nat)
    requires d > 0
    ensures n / d <= |ChannelTicks(d, lo, n)| <= (n + d - 1) / d
  {
    ChannelTicksShifted(d, lo, n);
    var r := Rem(lo + d - 1, d);
    QuotRem(lo + d - 1, d);
    QuotMonotone(n, r + n, d);
    QuotMonotone(r + n, n + d - 1, d);
    QuotIsDiv(n, d);
    QuotIsDiv(n + d - 1, d);
  }

  /** A window of `k` whole periods holds exactly `k` emissions, wherever it starts. */
  lemma ChannelTicksWholePeriods(d: int, lo: nat, k: nat)
    requires d > 0
    ensures |ChannelTicks(d, lo, k * d)| == k
  {
    ChannelTicksShifted(d, lo, k * d);
    RemBelow(lo + d - 1, d);
    QuotPeriods(Rem(lo + d - 1, d), k, d);
  }

  // ---------------------------------------------------------------------------
  // One tick across the table, and the whole schedule

  /** The samples due at `tick` from the first `i` channels of the table, in table order. */
  function TickEvents(chs: seq<Channel>, tick: nat, i: nat): (r: seq<Event>)
    requires PositiveDividers(chs) && i <= |chs|
  {
    if i == 0 then []
    else if Divides(chs[i - 1].divider, tick) then TickEvents(chs, tick, i - 1) + [Event(i - 1, tick)]
    else TickEvents(chs, tick, i - 1)
  }

  /** Every sample listed at a tick is due: it is at that tick and its divider divides it. */
  lemma {:induction false} TickEventsSound(chs: seq<Channel>, tick: nat, i: nat)
    requires PositiveDividers(chs) && i <= |chs|
    ensures forall k :: 0 <= k < |TickEvents(chs, tick, i)| ==>
      && TickEvents(chs, tick, i)[k].tick == tick
      && TickEvents(chs, tick, i)[k].pos < i
      && Divides(chs[TickEvents(chs, tick, i)[k].pos].divider, tick)
  {
    if i > 0 {
      TickEventsSound(chs, tick, i - 1);
    }
  }

  /** Within one tick the samples follow the table order. */
  lemma {:induction false} TickEventsOrdered(chs: seq<Channel>, tick: nat, i: nat)
    requires PositiveDividers(chs) && i <= |chs|
    ensures forall k, l :: 0 <= k < l < |TickEvents(chs, tick, i)| ==>
      TickEvents(chs, tick, i)[k].pos < TickEvents(chs, tick, i)[l].pos
  {
    if i > 0 {
      TickEventsOrdered(chs, tick, i - 1);
      TickEventsSound(chs, tick, i - 1);
    }
  }

  /** A channel is listed at a tick exactly when its divider divides the tick. */
  lemma {:induction false} TickEventsComplete(chs: seq<Channel>, tick: nat, i: nat, p: nat)
    requires PositiveDividers(chs) && i <= |chs|
    ensures Event(p, tick) in TickEvents(chs, tick, i) <==> p < i && Divides(chs[p].divider, tick)
  {
    if i > 0 {
      TickEventsComplete(chs, tick, i - 1, p);
    }
  }

  /** Scanning fewer channels yields a prefix of the tick's samples. */
  lemma {:induction false} TickEventsPrefix(chs: seq<Channel>, tick: nat, i: nat, j: nat)
    requires PositiveDividers(chs) && i <= j <= |chs|
    ensures TickEvents(chs, tick, i) <= TickEvents(chs, tick, j)
  {
    if i < j {
      TickEventsPrefix(chs, tick, i, j - 1);
    }
  }

  /** At a tick every divider divides (tick 0 in particular), every channel emits exactly
      once, in table order. */
  lemma {:induction false} SynchronizationPoint(chs: seq<Channel>, tick: nat, i: nat)
    requires PositiveDividers(chs) && i <= |chs|
    requires forall p :: 0 <= p < |chs| ==> Divides(chs[p].divider, tick)
    ensures |TickEvents(chs, tick, i)| == i
    ensures forall p :: 0 <= p < i ==> TickEvents(chs, tick, i)[p] == Event(p, tick)
  {
    if i > 0 {
      SynchronizationPoint(chs, tick, i - 1);
    }
  }

  /** All samples of the ticks `[start, start + n)`, in stream order. */
  function Schedule(chs: seq<Channel>, start: nat, n: nat): (r: seq<Event>)
    requires PositiveDividers(chs)
  {
    if n == 0 then []
    else Schedule(chs, start, n - 1) + TickEvents(chs, start + n - 1, |chs|)
  }

  /** One more tick appends that tick's samples. */
  lemma ScheduleStep(chs: seq<Channel>, start: nat, n: nat)
    requires PositiveDividers(chs) && n > 0
    ensures Schedule(chs, start, n) == Schedule(chs, start, n - 1) + TickEvents(chs, start + n - 1, |chs|)
  {
  }

  /** Every sample of the schedule is due: inside the window, at a tick its divider divides. */
  lemma {:induction false} ScheduleSound(chs: seq<Channel>, start: nat, n: nat)
    requires PositiveDividers(chs)
    ensures forall k :: 0 <= k < |Schedule(chs, start, n)| ==>
      && start <= Schedule(chs, start, n)[k].tick < start + n
      && Schedule(chs, start, n)[k].pos < |chs|
      && Divides(chs[Schedule(chs, start, n)[k].pos].divider, Schedule(chs, start, n)[k].tick)
  {
    if n > 0 {
      ScheduleSound(chs, start, n - 1);
      TickEventsSound(chs, start + n - 1, |chs|);
    }
  }

  /** Every event of `ev` names a position of a table of `n` channels. */
  ghost predicate PositionsBelow(ev: seq<Event>, n: nat)
  {
    forall k :: 0 <= k < |ev| ==> ev[k].pos < n
  }

  /** The schedule only names positions of the table. */
  lemma SchedulePositions(chs: seq<Channel>, start: nat, n: nat)
    requires PositiveDividers(chs)
    ensures PositionsBelow(Schedule(chs, start, n), |chs|)
  {
    ScheduleSound(chs, start, n);
  }

  /** The schedule is in stream order: by tick, then by table position. */
  lemma {:induction false} ScheduleOrdered(chs: seq<Channel>, start: nat, n: nat)
    requires PositiveDividers(chs)
    ensures forall k, l :: 0 <= k < l < |Schedule(chs, start, n)| ==>
      EventBefore(Schedule(chs, start, n)[k], Schedule(chs, start, n)[l])
  {
    if n > 0 {
      var prev := Schedule(chs, start, n - 1);
      var tick := TickEvents(chs, start + n - 1, |chs|);
      var ev := Schedule(chs, start, n);
      assert ev == prev + tick by { ScheduleStep(chs, start, n); }
      ScheduleOrdered(chs, start, n - 1);
      ScheduleSound(chs, start, n - 1);
      TickEventsOrdered(chs, start + n - 1, |chs|);
      TickEventsSound(chs, start + n - 1, |chs|);
      forall k, l | 0 <= k < l < |ev| ensures EventBefore(ev[k], ev[l]) {
        if l < |prev| {
          assert ev[k] == prev[k] && ev[l] == prev[l];
        } else if k < |prev| {
          assert ev[k] == prev[k] && ev[l] == tick[l - |prev|];
        } else {
          assert ev[k] == tick[k - |prev|] && ev[l] == tick[l - |prev|];
        }
      }
    }
  }

  /** The schedule lists every due sample of the window: together with the ordering its
      contract states, this fixes the stream layout completely. */
  lemma ScheduleComplete(chs: seq<Channel>, start: nat, n: nat, p: nat, t: nat)
    requires PositiveDividers(chs)
    ensures Event(p, t) in Schedule(chs, start, n) <==>
      p < |chs| && start <= t < start + n && Divides(chs[p].divider, t)
  {
    var ev := Schedule(chs, start, n);
    SchedulePositions(chs, start, n);
    InOnly(ev, p, Event(p, t));
    if p < |chs| {
      var d := chs[p].divider;
      OnlyOfSchedule(chs, start, n, p);
      ChannelTicksComplete(d, start, n, t);
      InEventsAt(p, ChannelTicks(d, start, n), Event(p, t));
    }
  }

  /** A shorter window's schedule is a prefix of a longer one's: decoding over an
      over-estimated duration replays the encoder's stream first. */
  lemma {:induction false} SchedulePrefix(chs: seq<Channel>, start: nat, a: nat, b: nat)
    requires PositiveDividers(chs) && a <= b
    ensures Schedule(chs, start, a) <= Schedule(chs, start, b)
  {
    if a < b {
      SchedulePrefix(chs, start, a, b - 1);
    }
  }

  // ---------------------------------------------------------------------------
  // Counting samples per channel

  /** The samples of table position `p` among `ev`, in stream order. */
  function Only(ev: seq<Event>, p: nat): (r: seq<Event>)
  {
    if |ev| == 0 then []
    else if ev[|ev| - 1].pos == p then Only(ev[..|ev| - 1], p) + [ev[|ev| - 1]]
    else Only(ev[..|ev| - 1], p)
  }

  /** Appending a slot extends position p's part exactly when the slot is at p. */
  lemma OnlySnoc(ev: seq<Event>, e: Event, p: nat)
    ensures Only(ev + [e], p) == if e.pos == p then Only(ev, p) + [e] else Only(ev, p)
  {
    assert (ev + [e])[..|ev|] == ev;
  }

  /** `Only` keeps exactly the samples of position `p`. */
  lemma {:induction false} InOnly(ev: seq<Event>, p: nat, e: Event)
    ensures e in Only(ev, p) <==> e in ev && e.pos == p
  {
    if |ev| > 0 {
      var init, last := ev[..|ev| - 1], ev[|ev| - 1];
      assert ev == init + [last];
      InOnly(init, p, e);
      OnlySnoc(init, last, p);
    }
  }

  /** Position p's part of a concatenation is the concatenation of the parts. */
  lemma {:induction false} OnlyAppend(a: seq<Event>, b: seq<Event>, p: nat)
    ensures Only(a + b, p) == Only(a, p) + Only(b, p)
  {
    if |b| == 0 {
      assert a + b == a;
    } else {
      var init, last := b[..|b| - 1], b[|b| - 1];
      assert b == init + [last];
      AppendAssoc(a, init, [last]);
      OnlyAppend(a, init, p);
      OnlySnoc(a + init, last, p);
      OnlySnoc(init, last, p);
      if last.pos == p {
        AppendAssoc(Only(a, p), Only(init, p), [last]);
      }
    }
  }

  /** Among the first i channels at one tick, position p contributes its one slot when it is
      one of them and due, and nothing otherwise. */
  lemma {:induction false} OnlyOfTick(chs: seq<Channel>, tick: nat, i: nat, p: nat)
    requires PositiveDividers(chs) && i <= |chs|
    ensures Only(TickEvents(chs, tick, i), p) == if p < i && Divides(chs[p].divider, tick) then [Event(p, tick)] else []
  {
    if i > 0 {
      var prev := TickEvents(chs, tick, i - 1);
      var due := Divides(chs[i - 1].divider, tick);
      OnlyOfTick(chs, tick, i - 1, p);
      if due {
        var e := Event(i - 1, tick);
        assert TickEvents(chs, tick, i) == prev + [e];
        OnlySnoc(prev, e, p);
        if p == i - 1 {
          assert Only(prev, p) == [];
        } else {
          assert Only(prev + [e], p) == Only(prev, p);
        }
      } else {
        assert TickEvents(chs, tick, i) == prev;
        if p == i - 1 {
          assert Only(prev, p) == [];
        }
      }
    }
  }

  /** Number of samples of table position `p` among `ev`. */
  function CountAt(ev: seq<Event>, p: nat): (n: nat)
  {
    |Only(ev, p)|
  }

  /** The samples of channel `p` at the given ticks. */
  function EventsAt(p: nat, ticks: seq<nat>): (r: seq<Event>)
    ensures |r| == |ticks|
  {
    if |ticks| == 0 then [] else EventsAt(p, ticks[..|ticks| - 1]) + [Event(p, ticks[|ticks| - 1])]
  }

  /** The slots of channel `p` in the schedule are its emission ticks, in order. */
  lemma {:induction false} OnlyOfSchedule(chs: seq<Channel>, start: nat, n: nat, p: nat)
    requires PositiveDividers(chs) && p < |chs|
    ensures Only(Schedule(chs, start, n), p) == EventsAt(p, ChannelTicks(chs[p].divider, start, n))
  {
    if n > 0 {
      OnlyOfSchedule(chs, start, n - 1, p);
      OnlyOfScheduleStep(chs, start, n, p);
    }
  }

  lemma OnlyOfScheduleStep(chs: seq<Channel>, start: nat, n: nat, p: nat)
    requires PositiveDividers(chs) && p < |chs| && n > 0
    requires Only(Schedule(chs, start, n - 1), p) == EventsAt(p, ChannelTicks(chs[p].divider, start, n - 1))
    ensures Only(Schedule(chs, start, n), p) == EventsAt(p, ChannelTicks(chs[p].divider, start, n))
  {
    var d, t := chs[p].divider, start + n - 1;
    var prev, ticks := Schedule(chs, start, n - 1), ChannelTicks(d, start, n - 1);
    if Divides(d, t) {
      calc {
        Only(Schedule(chs, start, n), p);
      == { ScheduleStep(chs, start, n); OnlyBehindTick(chs, prev, t, p); }
        Only(prev, p) + [Event(p, t)];
      == { EventsAtSnoc(p, ticks, t); }
        EventsAt(p, ticks + [t]);
      == { ChannelTicksStep(d, start, n); }
        EventsAt(p, ChannelTicks(d, start, n));
      }
    } else {
      calc {
        Only(Schedule(chs, start, n), p);
      == { ScheduleStep(chs, start, n); OnlyBehindTick(chs, prev, t, p); }
        Only(prev, p);
      == { ChannelTicksStep(d, start, n); }
        EventsAt(p, ChannelTicks(d, start, n));
      }
    }
  }

  /** Appending the samples of one tick adds the sample of `p` if `p` is due at that tick. */
  lemma OnlyBehindTick(chs: seq<Channel>, prev: seq<Event>, t: nat, p: nat)
    requires PositiveDividers(chs) && p < |chs|
    ensures Only(prev + TickEvents(chs, t, |chs|), p)
         == if Divides(chs[p].divider, t) then Only(prev, p) + [Event(p, t)] else Only(prev, p)
  {
    var tick := TickEvents(chs, t, |chs|);
    OnlyAppend(prev, tick, p);
    OnlyOfTick(chs, t, |chs|, p);
    if !Divides(chs[p].divider, t) {
      AppendEmpty(Only(prev, p));
    }
  }

  /** One more tick adds one more slot of position p. */
  lemma EventsAtSnoc(p: nat, ticks: seq<nat>, t: nat)
    ensures EventsAt(p, ticks + [t]) == EventsAt(p, ticks) + [Event(p, t)]
  {
    assert (ticks + [t])[..|ticks|] == ticks;
  }

  /** The samples of channel `p` at the given ticks are its events at exactly those ticks. */
  lemma {:induction false} InEventsAt(p: nat, ticks: seq<nat>, e: Event)
    ensures e in EventsAt(p, ticks) <==> e.pos == p && e.tick in ticks
  {
    if |ticks| > 0 {
      var init, t := ticks[..|ticks| - 1], ticks[|ticks| - 1];
      assert ticks == init + [t];
      InEventsAt(p, init, e);
    }
  }

  /** Channel `p` occupies as many slots of the schedule as it has emission ticks. */
  lemma CountAtSchedule(chs: seq<Channel>, start: nat, n: nat, p: nat)
    requires PositiveDividers(chs) && p < |chs|
    ensures CountAt(Schedule(chs, start, n), p) == |ChannelTicks(chs[p].divider, start, n)|
  {
    OnlyOfSchedule(chs, start, n, p);
  }

  /** Samples of positions `0 .. P-1` among `ev`. */
  function SumCounts(ev: seq<Event>, P: nat): (n: nat)
  {
    if P == 0 then 0 else SumCounts(ev, P - 1) + CountAt(ev, P - 1)
  }

  /** Appending a slot raises the count below P by one exactly when its position is below P. */
  lemma {:induction false} SumCountsSnoc(ev: seq<Event>, e: Event, P: nat)
    ensures SumCounts(ev + [e], P) == SumCounts(ev, P) + if e.pos < P then 1 else 0
  {
    if P > 0 {
      SumCountsSnoc(ev, e, P - 1);
      assert (ev + [e])[..|ev|] == ev;
    }
  }

  /** An empty stream counts nothing at any position. */
  lemma {:induction false} SumCountsEmpty(ev: seq<Event>, P: nat)
    requires |ev| == 0
    ensures SumCounts(ev, P) == 0
  {
    if P > 0 {
      SumCountsEmpty(ev, P - 1);
    }
  }

  /** When every sample belongs to one of the first `P` positions, the per-position counts
      add up to the length of the stream. */
  lemma {:induction false} SumCountsTotal(ev: seq<Event>, P: nat)
    requires forall k :: 0 <= k < |ev| ==> ev[k].pos < P
    ensures SumCounts(ev, P) == |ev|
  {
    if |ev| == 0 {
      SumCountsEmpty(ev, P);
    } else {
      var init := ev[..|ev| - 1];
      var last := ev[|ev| - 1];
      assert init + [last] == ev;
      assert forall k :: 0 <= k < |init| ==> init[k].pos < P by {
        forall k | 0 <= k < |init| ensures init[k].pos < P {
          assert init[k] == ev[k];
        }
      }
      SumCountsTotal(init, P);
      SumCountsSnoc(init, last, P);
      assert last.pos < P;
    }
  }

  /** Channel-major count of the window: the sum over the table of each channel's ticks. */
  function TotalEmissions(chs: seq<Channel>, start: nat, n: nat): (total: nat)
    requires PositiveDividers(chs)
  {
    if |chs| == 0 then 0
    else TotalEmissions(chs[..|chs| - 1], start, n) + |ChannelTicks(chs[|chs| - 1].divider, start, n)|
  }

  /** The tick-major schedule has exactly as many samples as the channel-major count. */
  lemma ScheduleSize(chs: seq<Channel>, start: nat, n: nat)
    requires PositiveDividers(chs)
    ensures |Schedule(chs, start, n)| == TotalEmissions(chs, start, n)
  {
    var ev := Schedule(chs, start, n);
    SchedulePositions(chs, start, n);
    SumCountsTotal(ev, |chs|);
    SumCountsByChannel(chs, start, n, |chs|);
    assert chs[..|chs|] == chs;
  }

  /** The slots of the first P positions in a schedule number the emissions of the first P
      channels over the window. */
  lemma {:induction false} SumCountsByChannel(chs: seq<Channel>, start: nat, n: nat, P: nat)
    requires PositiveDividers(chs) && P <= |chs|
    ensures SumCounts(Schedule(chs, start, n), P) == TotalEmissions(chs[..P], start, n)
  {
    if P > 0 {
      SumCountsByChannel(chs, start, n, P - 1);
      CountAtSchedule(chs, start, n, P - 1);
      assert chs[..P][..P - 1] == chs[..P - 1];
    }
  }
}

=== FILE: seqs.dfy ===
/** Concatenation facts the proofs cite by name: associativity and the empty right unit. */
module Seqs {

  /** Concatenation is associative. */
  lemma AppendAssoc<T>(a: seq<T>, b: seq<T>, c: seq<T>)
    ensures a + (b + c) == (a + b) + c
  {
  }

  /** The empty sequence is a right unit of concatenation. */
  lemma AppendEmpty<T>(a: seq<T>)
    ensures a + [] == a
  {
  }
}

=== FILE: words.dfy ===
/** The recorder's 32-bit quantities: `unsigned` start times, durations and ids, and
    `int` block lengths and estimates, as views of unbounded integers. */
module Words {

  /** `2^32`: the range of an `unsigned`. */
  const TWO_32: int := 0x1_0000_0000

  /** `2^31`: the first value an `int` cannot hold. */
  const TWO_31: int := 0x8000_0000

  /** A 32-bit word read as `unsigned`. */
  function ToUnsigned(x: int): (r: int)
    ensures 0 <= r < TWO_32 && (x - r) % TWO_32 == 0
    ensures 0 <= x < TWO_32 ==> r == x
  {
    x % TWO_32
  }

  /** A 32-bit word read as a two's-complement `int`. */
  function ToSigned(x: int): (r: int)
    ensures -TWO_31 <= r < TWO_31 && (x - r) % TWO_32 == 0
    ensures -TWO_31 <= x < TWO_31 ==> r == x
  {
    var u := x % TWO_32;
    if u < TWO_31 then u else u - TWO_32
  }

  /** Adding to an `int` that has already wrapped gives the wrap of the whole sum, so an
      accumulator that wraps at every step ends at the wrap of its exact total. */
  lemma ToSignedAdd(a: int, b: int)
    ensures ToSigned(ToSigned(a) + b) == ToSigned(a + b)
  {
  }
}
